=== FILE: README.md ===
# Porter bundle runtime: step execution and output binding

This project is a Dafny model of the control loop that Porter's runtime runs inside a CNAB
invocation image, in `pkg/runtime/runtime.go`, together with the properties proved about it.

For one action, the runtime works in this order:

1. It validates and prepares the runtime manifest.
2. It loads the bundle.json and the optional relocation mapping, and resolves the manifest's
   images against them.
3. It creates the mixin output channel directory (`/cnab/app/porter/outputs`).
4. It runs the steps in order and stops at the first one that fails.

For each step, the runtime resolves the step and invokes its mixin with an envelope that holds
only that step. It then drains the channel: it reads and removes every file there. It records
the outputs in the manifest. Finally it binds the declared, in-scope outputs to the bundle
output store (`/cnab/app/outputs/<name>`). After the loop, whatever happened in it, one pass
copies each declared output that no step recorded from its declared path into the store. That
pass's error is only logged. The action's result is the first step error, or success.

The model is functional:

- The filesystem is an immutable value: a map from path to contents, a set of directories, and
  the set of (operation, path) pairs the environment refuses.
- The manifest collaborators, the mixin runner, the bundle loader and the relocation decoder are
  function-valued fields of an `Env` record.
- Go's map iteration order and the directory listing order are an `enumerate` oracle. It may
  list a set's elements in any order, each exactly once. Every property is proved for every
  such order.

| file | module | models |
|---|---|---|
| outcomes.dfy | `Outcomes` | results, errors with the stage that wrapped them, enumeration orders |
| files.dfy | `Files` | the filesystem, `filepath.Join` as concatenation, `CopyFile` |
| collaborators.dfy | `Collaborators` | steps, output definitions, the runtime manifest, the collaborator oracles |
| scope.dfy | `Scope` | `shouldApplyOutput` |
| channel.dfy | `Channel` | `readMixinOutputs` |
| binder.dfy | `Binder` | `createOutputsDir`, `applyStepOutputsToBundle` |
| unbound.dfy | `Unbound` | `applyUnboundBundleOutputs`, as written and as intended |
| images.dfy | `Images` | `getImageMappingFiles` |
| step.dfy | `StepExecutor` | `executeStep` |
| loop.dfy | `StepLoop` | the step loop of `Execute`, for any step runner |
| driver.dfy | `Driver` | `Execute` |

The model follows the code in these details:

- The store directory is created before the outputs are examined. This happens even when no
  output is bound.
- A relocation file that cannot be stat'd for any reason counts as absent.
- Some errors are returned without wrapping. These are the errors of Validate, Prepare and
  ApplyStepOutputs, and a failed removal of a channel file.
- "Already produced by a step" means that the manifest holds a non-empty recorded value for the
  output. An empty recorded value does not count.
- The unbound pass's copy failures are lost (see Findings).

## Model

| member | source | states |
|---|---|---|
| Scope.ListsAction | pkg/runtime/runtime.go:215-219 | The scan over `ApplyTo` finds a match exactly when the action is an element of the list. |
| Scope.ShouldApplyOutput | pkg/runtime/runtime.go:210-221 | An output with an empty `ApplyTo` applies to every action. Otherwise it applies exactly when some element of `ApplyTo` equals the action's name. |
| Scope.InstallOnlyOutput | pkg/runtime/runtime.go:210-221 | An output with `ApplyTo = ["install"]` is in scope for install and out of scope for upgrade. |
| Channel.TakeEach | pkg/runtime/runtime.go:231-247 | Over the listed names: directories are skipped, and each file is read, recorded under its name and then removed. The loop succeeds exactly when every visited file can be read and removed. Only visited files disappear and no other file changes. The outputs map each file's name to its contents. |
| Channel.ReadMixinOutputs | pkg/runtime/runtime.go:223-250 | Success happens exactly when the channel directory exists, can be listed, and each of its files can be read and removed. On success the outputs are exactly the channel's regular files, keyed by name, with their contents. Those files are removed, so the channel is left empty, and every other file and directory is untouched. On failure there are no outputs, nothing outside the channel changes, and no file is created. A missing or unlistable channel gives the wrapped listing error and changes nothing. Any other failure is on a channel file that cannot be taken: a refused read gives the wrapped read error naming that file, and a refused removal gives the bare removal error. |
| Channel.TakeEachFailure | pkg/runtime/runtime.go:236-246 | A failing loop failed on a visited file it could not take. The error is that file's wrapped read error, or its bare removal error when the read was allowed. |
| Channel.VisitedListingIsChannel | pkg/runtime/runtime.go:226-235 | The non-directory entries of a faithful listing of the channel are exactly the files directly inside it. |
| Binder.CreateOutputsDir | pkg/runtime/runtime.go:137-143 | Succeeds exactly when the store already is a directory, or no file is in the way and mkdir is permitted. It then only adds the store directory. Its error is wrapped as a failure to ensure the store. |
| Binder.ExistingStoreIsKept | pkg/runtime/runtime.go:139 | An existing store directory is success with nothing changed, even where making it would be refused. |
| Files.MkdirAll | pkg/runtime/runtime.go:66 | Succeeds exactly when the directory already exists, or no file is in the way and making it is permitted. It then only records the directory. |
| Binder.OutputPathIsNotStore | pkg/runtime/runtime.go:160 | A store file's path is never the store directory itself. |
| Binder.DistinctKeysDistinctPaths | pkg/runtime/runtime.go:160 | When definitions are named by their keys, different outputs are written to different store files. |
| Binder.WriteEach | pkg/runtime/runtime.go:153-167 | Keys that are undeclared or out of scope cause no write. The loop passes exactly when every bound key's store file is writable. Then each bound file exists and holds the produced value verbatim. Only bound files change. A failure is the wrapped write error of a bound output's store file that is not writable. |
| Binder.ApplyStepOutputsToBundle | pkg/runtime/runtime.go:147-169 | The store is created first. If that fails, its wrapped error is returned and the filesystem is unchanged. Binding succeeds exactly when the store can be created and every declared, in-scope output's file is writable. Then `<store>/<name>` holds the produced value verbatim. When the store was created and binding fails, the error is the wrapped write error naming the store file of a bound output that is not writable. No file other than those of bound outputs changes, whatever the map order. |
| Binder.UnboundKeyNotWritten | pkg/runtime/runtime.go:153-159 | A produced output that is undeclared or out of scope leaves its store file exactly as it was. |
| Binder.BindingIsOrderIndependent | pkg/runtime/runtime.go:153-167 | A successful binding gives the same filesystem under every map iteration order. |
| Unbound.CopyEach | pkg/runtime/runtime.go:186-205 | Only collected outputs' store files change. Every recorded failure is a wrapped copy error of a collected output, and no output fails twice. |
| Unbound.CopyEachReportsEveryFailure | pkg/runtime/runtime.go:197-203 | A failed copy does not stop the loop. Among collected outputs, the failed ones are exactly those that cannot be copied from the starting filesystem. |
| Unbound.CopyEachCopiesVerbatim | pkg/runtime/runtime.go:197-200 | Each collected output that can be copied ends with its store file holding its source's contents. |
| Unbound.Collect | pkg/runtime/runtime.go:184-205 | Over the declared outputs in any order, only the collected outputs' store files change. The failures are exactly the collected outputs that cannot be copied, one each. Each copyable collected output is in the store verbatim. |
| Unbound.ApplyUnboundBundleOutputs | pkg/runtime/runtime.go:174-208 | The corrected pass. Only outputs that have no recorded value, have a path and are in scope are copied, into `<store>/<name>`. Failure to create the store is returned as is, and then the filesystem is unchanged. Otherwise the pass reports nil exactly when every collected output can be copied. Else it reports one aggregated error per failed copy. Each error names the source and store file of a collected output, and every output that cannot be copied has its error in the aggregate. Copied files hold their source's contents verbatim. |
| Unbound.RecordedOutputIsNotCollected | pkg/runtime/runtime.go:185-190 | An output whose recorded value is non-empty keeps its store file as it was, present or absent. |
| Unbound.RecordedPathIsNotCollected | pkg/runtime/runtime.go:185-190 | The store file of an output with a non-empty recorded value is not among the files the pass may write. |
| Unbound.ApplyUnboundBundleOutputsAsWritten | pkg/runtime/runtime.go:174-208 | The pass as written reports failure exactly when the store cannot be created, whatever the copies did. Its filesystem effect is the corrected pass's. |
| Unbound.CopyFailureIsSwallowed | pkg/runtime/runtime.go:199-207 | One uncopyable collected output makes the corrected pass fail while the pass as written returns nil. |
| Unbound.BothFailuresReported | pkg/runtime/runtime.go:184-207 | Two collected outputs that both fail to copy are both in the corrected pass's aggregate: it holds at least two errors, one naming each copy's source and store file. |
| Unbound.FailuresReported | pkg/runtime/runtime.go:199-202 | Each aggregated error names the copy of a collected output, and each failed output has its error in the aggregate. |
| Unbound.MissingSourceExample | pkg/runtime/runtime.go:193-207 | A declared output `report` with a path to a missing file is reported by the corrected pass and swallowed by the pass as written. |
| Unbound.FailedOutputsCount | pkg/runtime/runtime.go:201 | Failures for distinct outputs number as many as the outputs. |
| Images.GetImageMappingFiles | pkg/runtime/runtime.go:252-274 | Success happens exactly when bundle.json reads and loads, and, if the relocation file can be stat'd, it also reads and decodes. A relocation file that cannot be stat'd gives an empty map and no error. Each failure is wrapped with the stage that failed: reading or loading bundle.json, reading or decoding the relocation file. A load or decode failure carries the decoder's error. |
| Images.MissingRelocationIsEmpty | pkg/runtime/runtime.go:262-273 | Without a relocation file, the bundle is paired with an empty mapping, whatever the decoder would say. |
| StepExecutor.StoreIsNotChannel | pkg/runtime/runtime.go:160 | A store file is never inside the channel directory. |
| StepExecutor.BindLeavesChannelAlone | pkg/runtime/runtime.go:133-134 | Binding never writes into the channel: every path directly inside it keeps its presence and contents. So an empty channel stays empty. |
| StepExecutor.ExecuteStep | pkg/runtime/runtime.go:91-135 | A nil step does nothing. A step that fails to resolve changes nothing and invokes no mixin. Otherwise the mixin is invoked once, with the action as command and an envelope holding only this step. Each stage runs only after the previous ones succeeded, and its failure is the step's error, left in the state that stage produced. This includes the final binding, whose result and filesystem become the step's. On success the channel is empty and the manifest is the collaborator's updated state. Every declared, in-scope output the mixin produced is then in the store verbatim. |
| StepLoop.RunLoop | pkg/runtime/runtime.go:71-77 | At most all steps are entered. Success means all were entered, and a failure entered at least one. The loop invokes nothing of its own. |
| StepLoop.FailureIgnoresLaterSteps | pkg/runtime/runtime.go:72-77 | Once a prefix has failed, appended steps change neither result, state nor trace. |
| StepLoop.SuccessComposes | pkg/runtime/runtime.go:72-77 | A prefix that succeeds is followed by the rest, run from the state the prefix reached, in order. |
| StepLoop.FirstFailingStep | pkg/runtime/runtime.go:71-77 | Suppose steps before k succeed and step k fails. Then the loop returns step k's error after entering k + 1 steps, and equals the loop over steps 0..k. |
| StepLoop.FailureIsAtLastEnteredStep | pkg/runtime/runtime.go:71-77 | A failing loop failed at its last entered step, and the steps before that step succeeded. |
| StepLoop.SucceedsIffEveryStepDoes | pkg/runtime/runtime.go:71-77 | The loop succeeds exactly when every step succeeds from the state its predecessors left. |
| Driver.StepRunner | pkg/runtime/runtime.go:73 | The loop's runner is `executeStep`, and it invokes nothing but mixins. |
| Driver.Prepare | pkg/runtime/runtime.go:42-69 | The fatal stages run in order, and each one's failure is the result. Validate and Prepare errors are returned unwrapped. Image-mapping errors are returned as produced. Image resolution and channel creation errors are wrapped with their stage. Preparation is ready exactly when all five stages succeed. The loop then starts from the resolved manifest state, on the prepared filesystem with the channel directory added. |
| Driver.Execute | pkg/runtime/runtime.go:35-89 | A fatal stage's failure is returned before any step or collection runs. Otherwise the result is the step loop's, and exactly one unbound pass follows every invoked mixin. The store reflects that pass whatever it reported, and it is the same for the pass as written. Success means every step ran. |
| Driver.ExecuteStopsAtFirstFailingStep | pkg/runtime/runtime.go:71-88 | If step k is the first to fail, `Execute` returns exactly its error, invokes no later mixin and still collects once. Its result is the same as with steps after k removed. |
| Driver.ExecuteSucceedsIffEveryStepDoes | pkg/runtime/runtime.go:71-88 | `Execute` succeeds exactly when the fatal stages do and every step does, whatever the unbound pass reports. |
| Files.CopyFileSpec | pkg/runtime/runtime.go:199 | A copy succeeds exactly when the source is a file that can be stat'd and read and the destination is writable. It then only sets the destination to the source's contents. |
| Files.JoinInjective | pkg/runtime/runtime.go:160 | Joining names to one directory is injective. |

## Left out

- Printing the banner, step descriptions, "Collecting bundle outputs..." and the completion
  message, and logging the unbound pass's error: text output only. The logged error is not
  part of `Driver.Execute`'s result.
- The installation and bundle name environment lookups: they only feed the banner.
- Sensitive-value masking (`SetSensitiveValues`): ambient logging state with no observable
  result here.
- YAML marshalling of the step envelope: the mixin receives the envelope as a datatype.
- Process spawning for the mixin: `runMixin` is an oracle returning a filesystem and a result.
- The internals of Validate, Prepare, ResolveImages, ResolveStep, ApplyStepOutputs and
  GetOutputs: each is an abstract collaborator. Prepare may change the filesystem. The model
  lets ApplyStepOutputs and ResolveImages change the manifest state and lets ResolveStep
  return a resolved step.
- bundle.json loading and relocation JSON decoding: oracles that yield a value or a failure.
- File permission modes, the text of error messages and `multierror` formatting: errors are
  values that record the stage and the failing operation and path. A failed copy's stage also
  records its source and store file, as the `Wrapf` message does.
- `filepath.Join` normalisation: a path is joined by plain concatenation with `/`.
- `MkdirAll`'s creation of missing ancestors: only the target directory is recorded.
- Directory listings in sorted order: any order is modelled, so every property holds for the
  sorted one.
- `context.CopyFile`, `context.MixinOutputsDir` and `config.BundleOutputsDir` are defined in
  `pkg/context` and `pkg/config`, outside `runtime.go`. The copy is modelled as stat, read,
  write, and the two directories as `/cnab/app/porter/outputs` and `/cnab/app/outputs`.
- Unbound.ApplyUnboundBundleOutputs: the result, the count of reported failures and the
  verbatim copies are stated only when no declared source path is itself one of the store files
  the pass writes. Without that, a copy's success depends on the map order.
- Unbound.Collect: its exact-failure and verbatim-copy clauses carry the same condition, and the
  verbatim clause also needs every definition to be named by its key.
- Unbound.CopyEachReportsEveryFailure: the exact failure set is proved only when no visited
  source is one of the store files the loop writes.
- Unbound.CopyEachCopiesVerbatim: needs the same condition, and every definition named by its
  key.
- Channel.ReadMixinOutputs: on failure, the model does not say which channel files were already
  removed. This depends on the listing order.
- Binder.ApplyStepOutputsToBundle: when the store was created but a write failed, the model
  does not say which store files were already written. This depends on the map order.
- Binder.WriteEach: its verbatim-value clause needs every definition to be named by its key
  (`WellKeyed`). The store file is named after the definition's name, so two keys naming the
  same output would overwrite each other.
- Binder.ApplyStepOutputsToBundle: its verbatim-value clause needs the same condition.
- StepExecutor.ExecuteStep: its verbatim-value clause for the bind stage needs the same
  condition.
- Unbound.RecordedOutputIsNotCollected: needs the same condition, because the store file it
  speaks of is named after the key.
- Unbound.RecordedPathIsNotCollected: needs the same condition, for the same reason.
- Binder.UnboundKeyNotWritten: needs the same condition, because the store file it speaks of
  is named after the key.
- Binder.BindingIsOrderIndependent: needs the same condition; without it two keys naming the
  same output write one store file, and the last write depends on the map order.
- Unbound.CopyFailureIsSwallowed: needs no declared source path to be one of the store files
  the pass writes, the same condition as Unbound.ApplyUnboundBundleOutputs.
- Unbound.BothFailuresReported: needs the same condition.

## Findings

| source | as written | input that shows it | evidently intended | confidence | as-written member | corrected member |
|---|---|---|---|---|---|---|
| pkg/runtime/runtime.go:201 | The wrapped copy error is appended to `bigErr` but the result is assigned to `err`. `bigErr` stays nil, so the function returns nil after any number of copy failures. | Action install, a declared output `report` with path `/cnab/app/report.txt`, no recorded value, and no file at that path: the copy fails and the pass returns nil. | Every copy failure is collected into one aggregate error, so that it is logged: `bigErr = multierror.Append(bigErr, …)`. | not executed | Unbound.ApplyUnboundBundleOutputsAsWritten (shown by Unbound.MissingSourceExample and Unbound.CopyFailureIsSwallowed) | Unbound.ApplyUnboundBundleOutputs (with Unbound.BothFailuresReported) |

The driver uses the corrected pass. Both passes leave the same filesystem, and `Execute` only
logs the pass's error. So the action's result and its files are the same either way.
`Driver.Execute` states the filesystem equality for both passes.

=== FILE: binder.dfy ===
/** The bundle output binder (`applyStepOutputsToBundle`): the outputs a step
    produced that are declared as bundle outputs, and in scope for the
    current action, are written to the bundle output store. */
module Binder {
  import opened Outcomes
  import opened Files
  import opened Collaborators
  import opened Scope

  /** `config.BundleOutputsDir`. */
  const BundleOutputsDir: Path := "/cnab/app/outputs"

  /** `createOutputsDir`: make sure the bundle output store exists. */
  function CreateOutputsDir(fs: FileSystem): (r: Result<FileSystem>)
    ensures r.Ok? <==> CanCreateOutputsDir(fs)
    ensures r.Ok? ==> r.value == fs.(dirs := fs.dirs + {BundleOutputsDir})
    ensures r.Err? ==> r.error == Wrapped(EnsureBundleOutputsDir, FsFailure(MkdirOp, BundleOutputsDir))
  {
    match MkdirAll(fs, BundleOutputsDir)
    case Err(e) => Err(Wrapped(EnsureBundleOutputsDir, e))
    case Ok(fs1) => Ok(fs1)
  }

  /** The store already exists, or it can be made. */
  predicate CanCreateOutputsDir(fs: FileSystem)
  {
    CanMkdirAll(fs, BundleOutputsDir)
  }

  /** An existing store is kept as it is, even where making it would be
      refused. */
  lemma ExistingStoreIsKept(fs: FileSystem)
    requires BundleOutputsDir in fs.dirs
    requires Access(MkdirOp, BundleOutputsDir) in fs.denied
    ensures CreateOutputsDir(fs) == Ok(fs)
  {
  }

  /** Where a declared output is stored: `<BundleOutputsDir>/<Name>`. */
  function OutputPath(def: OutputDefinition): Path
  {
    Join(BundleOutputsDir, def.name)
  }

  /** A file of the store is never the store directory itself. */
  lemma OutputPathIsNotStore(def: OutputDefinition)
    ensures OutputPath(def) != BundleOutputsDir
  {
    assert |OutputPath(def)| > |BundleOutputsDir|;
  }

  /** The produced output `key` is declared and in scope for `action`. */
  predicate Binds(action: string, defs: map<string, OutputDefinition>, outputs: map<string, string>, key: string)
  {
    key in outputs && key in defs && ShouldApplyOutput(action, defs[key])
  }

  /** The store files the loop writes when it visits `keys`. */
  ghost function WriteTargets(action: string, defs: map<string, OutputDefinition>, outputs: map<string, string>,
                              keys: seq<string>): set<Path>
  {
    set k | k in keys && Binds(action, defs, outputs, k) :: OutputPath(defs[k])
  }

  /** The store files binding `outputs` may write. */
  ghost function BoundPaths(action: string, defs: map<string, OutputDefinition>, outputs: map<string, string>): set<Path>
  {
    set k | k in outputs && Binds(action, defs, outputs, k) :: OutputPath(defs[k])
  }

  /** Under well-keyed definitions, outputs with different names go to
      different files. */
  lemma DistinctKeysDistinctPaths(defs: map<string, OutputDefinition>, a: string, b: string)
    requires WellKeyed(defs) && a in defs && b in defs && a != b
    ensures OutputPath(defs[a]) != OutputPath(defs[b])
  {
    if OutputPath(defs[a]) == OutputPath(defs[b]) {
      JoinInjective(BundleOutputsDir, a, b);
    }
  }

  /** The loop over the produced outputs: skip undeclared and out-of-scope
      keys, write the value of the others verbatim, stop at the first write
      that fails. */
  function WriteEach(action: string, defs: map<string, OutputDefinition>, outputs: map<string, string>,
                     keys: seq<string>, fs: FileSystem): (r: Effect)
    requires Distinct(keys)
    requires forall k :: k in keys ==> k in outputs
    ensures r.fs.dirs == fs.dirs && r.fs.denied == fs.denied
    ensures SameOutside(r.fs.files, fs.files, WriteTargets(action, defs, outputs, keys))
    ensures r.outcome.Pass? <==>
              forall k :: k in keys && Binds(action, defs, outputs, k) ==> Writable(fs, OutputPath(defs[k]))
    ensures r.outcome.Pass? ==>
              forall k :: k in keys && Binds(action, defs, outputs, k) ==> OutputPath(defs[k]) in r.fs.files
    ensures r.outcome.Pass? && WellKeyed(defs) ==>
              forall k :: k in keys && Binds(action, defs, outputs, k) ==> r.fs.files[OutputPath(defs[k])] == outputs[k]
    ensures r.outcome.Fail? ==> r.outcome.error.Wrapped? && r.outcome.error.stage == WriteBundleOutput
    ensures r.outcome.Fail? ==>
              exists k :: k in keys && Binds(action, defs, outputs, k) && !Writable(fs, OutputPath(defs[k])) &&
                r.outcome == Fail(Wrapped(WriteBundleOutput, FsFailure(WriteOp, OutputPath(defs[k]))))
    decreases |keys|
  {
    if keys == [] then Effect(fs, Pass)
    else
      var key := keys[0];
      assert Distinct(keys[1..]);
      assert forall k :: k in keys[1..] ==> k in keys && k != key;
      if key !in defs || !ShouldApplyOutput(action, defs[key]) then
        assert WriteTargets(action, defs, outputs, keys) == WriteTargets(action, defs, outputs, keys[1..]);
        WriteEach(action, defs, outputs, keys[1..], fs)
      else
        var path := OutputPath(defs[key]);
        assert WriteTargets(action, defs, outputs, keys) == {path} + WriteTargets(action, defs, outputs, keys[1..]);
        match WriteFile(fs, path, outputs[key])
        case Err(e) => Effect(fs, Fail(Wrapped(WriteBundleOutput, e)))
        case Ok(fs1) =>
          var rest := WriteEach(action, defs, outputs, keys[1..], fs1);
          assert WellKeyed(defs) ==> path !in WriteTargets(action, defs, outputs, keys[1..]) by {
            if WellKeyed(defs) {
              forall k | k in keys[1..] && Binds(action, defs, outputs, k) ensures OutputPath(defs[k]) != path {
                DistinctKeysDistinctPaths(defs, k, key);
              }
            }
          }
          rest
  }

  /** `applyStepOutputsToBundle`. The store directory is created first; then
      every produced output that is declared and in scope is written to
      `<BundleOutputsDir>/<Name>`, and nothing else in the filesystem
      changes. Binding succeeds exactly when the store can be created and
      every such file can be written; then each file holds its produced
      value verbatim. */
  function ApplyStepOutputsToBundle(action: string, defs: map<string, OutputDefinition>, outputs: map<string, string>,
                                    fs: FileSystem, enumerate: set<string> -> seq<string>): (r: Effect)
    requires Faithful(enumerate)
    ensures r.fs.denied == fs.denied
    ensures r.fs.dirs == if CanCreateOutputsDir(fs) then fs.dirs + {BundleOutputsDir} else fs.dirs
    ensures SameOutside(r.fs.files, fs.files, BoundPaths(action, defs, outputs))
    ensures !CanCreateOutputsDir(fs) ==>
              r.fs == fs && r.outcome == Fail(Wrapped(EnsureBundleOutputsDir, FsFailure(MkdirOp, BundleOutputsDir)))
    ensures r.outcome.Pass? <==>
              CanCreateOutputsDir(fs) &&
              forall k :: Binds(action, defs, outputs, k) ==> Writable(fs, OutputPath(defs[k]))
    ensures CanCreateOutputsDir(fs) && r.outcome.Fail? ==>
              exists k :: Binds(action, defs, outputs, k) && !Writable(fs, OutputPath(defs[k])) &&
                r.outcome == Fail(Wrapped(WriteBundleOutput, FsFailure(WriteOp, OutputPath(defs[k]))))
    ensures r.outcome.Pass? && WellKeyed(defs) ==>
              forall k :: Binds(action, defs, outputs, k) ==>
                Join(BundleOutputsDir, k) in r.fs.files && r.fs.files[Join(BundleOutputsDir, k)] == outputs[k]
  {
    match CreateOutputsDir(fs)
    case Err(e) => Effect(fs, Fail(e))
    case Ok(fs1) =>
      var keys := enumerate(outputs.Keys);
      assert Enumerates(keys, outputs.Keys);
      assert WriteTargets(action, defs, outputs, keys) == BoundPaths(action, defs, outputs);
      forall k | Binds(action, defs, outputs, k)
        ensures Writable(fs1, OutputPath(defs[k])) <==> Writable(fs, OutputPath(defs[k]))
      {
        OutputPathIsNotStore(defs[k]);
      }
      WriteEach(action, defs, outputs, keys, fs1)
  }

  /** A produced output that is undeclared or out of scope leaves its store
      file as it was. */
  lemma UnboundKeyNotWritten(action: string, defs: map<string, OutputDefinition>, outputs: map<string, string>,
                             fs: FileSystem, enumerate: set<string> -> seq<string>, key: string)
    requires Faithful(enumerate)
    requires WellKeyed(defs)
    requires key in outputs && !Binds(action, defs, outputs, key)
    ensures var after := ApplyStepOutputsToBundle(action, defs, outputs, fs, enumerate).fs.files;
            var p := Join(BundleOutputsDir, key);
            (p in after <==> p in fs.files) && (p in fs.files ==> after[p] == fs.files[p])
  {
    var p := Join(BundleOutputsDir, key);
    forall k | k in outputs && Binds(action, defs, outputs, k) ensures OutputPath(defs[k]) != p {
      if OutputPath(defs[k]) == p { JoinInjective(BundleOutputsDir, k, key); }
    }
  }

  /** A successful binding does not depend on the order Go visits the map. */
  lemma BindingIsOrderIndependent(action: string, defs: map<string, OutputDefinition>, outputs: map<string, string>,
                                  fs: FileSystem, e1: set<string> -> seq<string>, e2: set<string> -> seq<string>)
    requires Faithful(e1) && Faithful(e2)
    requires WellKeyed(defs)
    requires ApplyStepOutputsToBundle(action, defs, outputs, fs, e1).outcome.Pass?
    ensures ApplyStepOutputsToBundle(action, defs, outputs, fs, e1) == ApplyStepOutputsToBundle(action, defs, outputs, fs, e2)
  {
    var r1 := ApplyStepOutputsToBundle(action, defs, outputs, fs, e1);
    var r2 := ApplyStepOutputsToBundle(action, defs, outputs, fs, e2);
    var bound := BoundPaths(action, defs, outputs);
    forall p | p in bound
      ensures p in r1.fs.files && p in r2.fs.files && r1.fs.files[p] == r2.fs.files[p]
    {
      var k :| k in outputs && Binds(action, defs, outputs, k) && OutputPath(defs[k]) == p;
      assert Join(BundleOutputsDir, k) == p;
    }
    assert r1.fs.files == r2.fs.files;
  }
}

=== FILE: channel.dfy ===
/** The output channel: the directory a mixin writes one file per produced
    output into, drained by the runtime after every step (`readMixinOutputs`). */
module Channel {
  import opened Outcomes
  import opened Files

  /** `context.MixinOutputsDir`. */
  const MixinOutputsDir: Path := "/cnab/app/porter/outputs"

  /** The filesystem after draining the channel, and the outputs read (name
      to contents) or the error that discarded them. */
  datatype Drain = Drain(fs: FileSystem, outputs: Result<map<string, string>>)

  /** A file the runtime can take out of the channel: read it, then remove it. */
  predicate Takeable(fs: FileSystem, p: Path)
  {
    p in fs.files && Allowed(fs, ReadOp, p) && Allowed(fs, RemoveOp, p)
  }

  /** The regular files directly inside the channel directory. */
  function ChannelFiles(fs: FileSystem): set<Path>
  {
    set p | p in fs.files && IsChildPath(MixinOutputsDir, p) && p !in fs.dirs
  }

  /** `e` is what taking the channel file `p` fails with: a failed read is
      wrapped with its stage, a failed removal is returned as it is. */
  predicate TakeFails(fs: FileSystem, p: Path, e: Error)
  {
    if p in fs.files && Allowed(fs, ReadOp, p) then !Allowed(fs, RemoveOp, p) && e == FsFailure(RemoveOp, p)
    else e == Wrapped(ReadMixinOutputFile, FsFailure(ReadOp, p))
  }

  /** The channel paths the loop takes when it visits `names`: those that are
      not directories. */
  ghost function Visited(fs: FileSystem, names: seq<string>): set<Path>
  {
    set n | n in names && Join(MixinOutputsDir, n) !in fs.dirs :: Join(MixinOutputsDir, n)
  }

  /** The loop of `readMixinOutputs` over the listed entry names: skip
      directories, read each file, record it, remove it; the first failure
      discards every output read so far (the removals stay done). */
  function TakeEach(fs: FileSystem, names: seq<string>): (r: Drain)
    requires Distinct(names)
    ensures r.fs.dirs == fs.dirs && r.fs.denied == fs.denied
    ensures SubMap(r.fs.files, fs.files)
    ensures SameOutside(r.fs.files, fs.files, Visited(fs, names))
    ensures r.outputs.Ok? <==>
              forall n :: n in names && Join(MixinOutputsDir, n) !in fs.dirs ==> Takeable(fs, Join(MixinOutputsDir, n))
    ensures r.outputs.Ok? ==> forall p :: p in Visited(fs, names) ==> p !in r.fs.files
    ensures r.outputs.Ok? ==>
              forall n :: n in r.outputs.value <==> n in names && Join(MixinOutputsDir, n) !in fs.dirs
    ensures r.outputs.Ok? ==>
              forall n :: n in r.outputs.value ==>
                Join(MixinOutputsDir, n) in fs.files && r.outputs.value[n] == fs.files[Join(MixinOutputsDir, n)]
    decreases |names|
  {
    if names == [] then Drain(fs, Ok(map[]))
    else
      var name := names[0];
      var p := Join(MixinOutputsDir, name);
      assert Distinct(names[1..]);
      assert forall n :: n in names[1..] ==> n in names && n != name && Join(MixinOutputsDir, n) != p by {
        forall n | n in names[1..] ensures n in names && n != name && Join(MixinOutputsDir, n) != p {
          if Join(MixinOutputsDir, n) == p { JoinInjective(MixinOutputsDir, n, name); }
        }
      }
      if p in fs.dirs then
        assert Visited(fs, names) == Visited(fs, names[1..]);
        TakeEach(fs, names[1..])
      else match ReadFile(fs, p)
        case Err(e) => Drain(fs, Err(Wrapped(ReadMixinOutputFile, e)))
        case Ok(contents) =>
          match Remove(fs, p)
          case Err(e) => Drain(fs, Err(e))
          case Ok(fs1) =>
            assert Visited(fs, names) == {p} + Visited(fs1, names[1..]);
            var rest := TakeEach(fs1, names[1..]);
            if rest.outputs.Err? then rest
            else Drain(rest.fs, Ok(rest.outputs.value[name := contents]))
  }

  /** A failing loop failed on a file it visited and could not take, with
      that file's read or removal error. */
  lemma {:induction false} TakeEachFailure(fs: FileSystem, names: seq<string>)
    requires Distinct(names)
    requires TakeEach(fs, names).outputs.Err?
    ensures exists p :: p in Visited(fs, names) && !Takeable(fs, p) && TakeFails(fs, p, TakeEach(fs, names).outputs.error)
    decreases |names|, 1
  {
    var p := Join(MixinOutputsDir, names[0]);
    assert Distinct(names[1..]);
    if p in fs.dirs {
      assert Visited(fs, names) == Visited(fs, names[1..]);
      TakeEachFailure(fs, names[1..]);
    } else if !Takeable(fs, p) {
      FirstNotTaken(fs, names);
    } else {
      LaterFailure(fs, names);
    }
  }

  /** The step of `TakeEachFailure` past a file the loop takes. */
  lemma {:induction false} LaterFailure(fs: FileSystem, names: seq<string>)
    requires Distinct(names) && names != []
    requires Join(MixinOutputsDir, names[0]) !in fs.dirs && Takeable(fs, Join(MixinOutputsDir, names[0]))
    requires TakeEach(fs, names).outputs.Err?
    ensures exists p :: p in Visited(fs, names) && !Takeable(fs, p) && TakeFails(fs, p, TakeEach(fs, names).outputs.error)
    decreases |names|, 0
  {
    var p := Join(MixinOutputsDir, names[0]);
    var fs1 := fs.(files := fs.files - {p});
    FirstTaken(fs, names);
    var e := TakeEach(fs1, names[1..]).outputs.error;
    TakeEachFailure(fs1, names[1..]);
    var q :| q in Visited(fs1, names[1..]) && !Takeable(fs1, q) && TakeFails(fs1, q, e);
    var n :| n in names[1..] && q == Join(MixinOutputsDir, n);
    if q == p { JoinInjective(MixinOutputsDir, n, names[0]); }
    assert q in Visited(fs, names) && !Takeable(fs, q) && TakeFails(fs, q, e);
  }

  /** A loop whose first entry is a file it cannot take fails on that file. */
  lemma FirstNotTaken(fs: FileSystem, names: seq<string>)
    requires Distinct(names) && names != []
    requires Join(MixinOutputsDir, names[0]) !in fs.dirs && !Takeable(fs, Join(MixinOutputsDir, names[0]))
    ensures var p := Join(MixinOutputsDir, names[0]);
            p in Visited(fs, names) && TakeFails(fs, p, TakeEach(fs, names).outputs.error)
  {
  }

  /** A loop whose first entry is a file it takes fails as the rest of the
      loop does, on the rest of the listing. */
  lemma FirstTaken(fs: FileSystem, names: seq<string>)
    requires Distinct(names) && names != []
    requires Join(MixinOutputsDir, names[0]) !in fs.dirs && Takeable(fs, Join(MixinOutputsDir, names[0]))
    requires TakeEach(fs, names).outputs.Err?
    ensures var p := Join(MixinOutputsDir, names[0]);
            var fs1 := fs.(files := fs.files - {p});
            && Distinct(names[1..])
            && Remove(fs, p) == Ok(fs1)
            && TakeEach(fs, names).outputs == TakeEach(fs1, names[1..]).outputs
            && Visited(fs, names) == {p} + Visited(fs1, names[1..])
            && forall q :: q != p ==> (Takeable(fs1, q) <==> Takeable(fs, q)) && (q in fs1.files <==> q in fs.files)
  {
  }


  /** `readMixinOutputs`: list the channel directory and take every regular
      file in it. On success the outputs are exactly the channel's files,
      keyed by file name, and those files are gone (the channel is empty, so
      nothing a step produced leaks into the next step) while directories
      and every file outside the channel are untouched. Any listing, read or
      removal failure returns no outputs at all. */
  function ReadMixinOutputs(fs: FileSystem, enumerate: set<string> -> seq<string>): (r: Drain)
    requires Faithful(enumerate)
    ensures r.fs.dirs == fs.dirs && r.fs.denied == fs.denied
    ensures r.outputs.Ok? <==>
              && MixinOutputsDir in fs.dirs && Allowed(fs, ListOp, MixinOutputsDir)
              && forall p :: p in ChannelFiles(fs) ==> Takeable(fs, p)
    ensures r.outputs.Ok? ==> r.fs.files == fs.files - ChannelFiles(fs) && ChannelFiles(r.fs) == {}
    ensures r.outputs.Ok? ==>
              forall n :: n in r.outputs.value <==> Join(MixinOutputsDir, n) in ChannelFiles(fs)
    ensures r.outputs.Ok? ==>
              forall n :: n in r.outputs.value ==> r.outputs.value[n] == fs.files[Join(MixinOutputsDir, n)]
    ensures r.outputs.Err? ==>
              SubMap(r.fs.files, fs.files) && SameOutside(r.fs.files, fs.files, ChannelFiles(fs))
    ensures !(MixinOutputsDir in fs.dirs && Allowed(fs, ListOp, MixinOutputsDir)) ==>
              r == Drain(fs, Err(Wrapped(ListMixinOutputs, FsFailure(ListOp, MixinOutputsDir))))
    ensures MixinOutputsDir in fs.dirs && Allowed(fs, ListOp, MixinOutputsDir) && r.outputs.Err? ==>
              exists p :: p in ChannelFiles(fs) && !Takeable(fs, p) && TakeFails(fs, p, r.outputs.error)
  {
    match ReadDir(fs, MixinOutputsDir)
    case Err(e) => Drain(fs, Err(Wrapped(ListMixinOutputs, e)))
    case Ok(entries) =>
      var names := enumerate(entries);
      assert Enumerates(names, entries);
      VisitedListingIsChannel(fs, names);
      var r := TakeEach(fs, names);
      assert r.outputs.Err? ==>
               exists p :: p in Visited(fs, names) && !Takeable(fs, p) && TakeFails(fs, p, r.outputs.error) by {
        if r.outputs.Err? { TakeEachFailure(fs, names); }
      }
      assert r.outputs.Ok? ==> ChannelFiles(r.fs) == {} by {
        if r.outputs.Ok? {
          forall p | p in r.fs.files ensures p !in ChannelFiles(r.fs) {
            assert p in fs.files && p !in ChannelFiles(fs);
          }
        }
      }
      r
  }

  /** Visiting every entry of the channel listing takes exactly the channel's
      regular files. */
  lemma VisitedListingIsChannel(fs: FileSystem, names: seq<string>)
    requires Enumerates(names, Children(fs, MixinOutputsDir))
    ensures Visited(fs, names) == ChannelFiles(fs)
    ensures forall n :: n in names && Join(MixinOutputsDir, n) !in fs.dirs <==>
                        Join(MixinOutputsDir, n) in ChannelFiles(fs)
  {
    var d := MixinOutputsDir;
    forall n | n in names
      ensures Join(d, n) in fs.files.Keys + fs.dirs
    {
      var q :| q in fs.files.Keys + fs.dirs && IsChildPath(d, q) && ChildName(d, q) == n;
    }
    forall p | p in ChannelFiles(fs)
      ensures ChildName(d, p) in names && Join(d, ChildName(d, p)) == p
    {
      assert ChildName(d, p) in Children(fs, d);
    }
    forall n | Join(d, n) in ChannelFiles(fs)
      ensures n in names
    {
      var p := Join(d, n);
      JoinInjective(d, n, ChildName(d, p));
    }
  }
}

=== FILE: collaborators.dfy ===
/** The runtime manifest and the collaborators the runtime calls but does not
    implement: the manifest's own operations, the mixin package manager, the
    bundle loader and the JSON decoder. Each collaborator is an arbitrary
    function; the model's contracts hold whatever they return. */
module Collaborators {
  import opened Outcomes
  import opened Files

  /** One step of an action: the mixin that runs it and its (templated) body. */
  datatype Step = Step(mixin: string, description: string, data: string)

  /** A bundle-level output: its name, the file it may be read from (empty
      for none), the actions it applies to (empty for all) and whether its
      value is sensitive. */
  datatype OutputDefinition = OutputDefinition(name: string, path: Path, applyTo: seq<string>, sensitive: bool)

  /** The envelope sent to the mixin: the action and the single step to run. */
  datatype ActionInput = ActionInput(action: string, steps: seq<Step>)

  /** `pkgmgmt.CommandOptions`: the command, its input and the runtime flag
      that tells an execution-phase call from a build-phase one. */
  datatype CommandOptions = CommandOptions(command: string, input: ActionInput, runtime: bool)

  /** Bookkeeping the manifest keeps for itself (resolved images, step
      outputs recorded so far, ...); the runtime only passes it around. */
  datatype ManifestState = ManifestState(entries: map<string, string>)

  /** A loaded bundle.json. Its contents matter only to the collaborators. */
  datatype BundleMetadata = BundleMetadata(fields: map<string, string>)

  /** The runtime manifest: the action being run, its steps (`GetSteps()`,
      a nil entry is `None`), the declared bundle outputs keyed by name,
      and the manifest's own state. */
  datatype RuntimeManifest = RuntimeManifest(
    action: string,
    steps: seq<Option<Step>>,
    outputs: map<string, OutputDefinition>,
    state: ManifestState)

  /** The declared outputs are keyed by their own names, as the manifest
      builds them. */
  predicate WellKeyed(defs: map<string, OutputDefinition>)
  {
    forall k :: k in defs ==> defs[k].name == k
  }

  /** The collaborators, as functions of the state they can see. */
  datatype Env = Env(
    validate: ManifestState -> Outcome,
    prepare: (ManifestState, FileSystem) -> Effect,
    loadBundle: string -> Result<BundleMetadata>,
    parseRelocation: string -> Result<map<string, string>>,
    resolveImages: (ManifestState, BundleMetadata, map<string, string>) -> Result<ManifestState>,
    resolveStep: (ManifestState, Step) -> Result<Step>,
    runMixin: (FileSystem, string, CommandOptions) -> Effect,
    applyStepOutputs: (ManifestState, map<string, string>) -> Result<ManifestState>,
    getOutputs: ManifestState -> map<string, string>,
    enumerate: set<string> -> seq<string>)
}

=== FILE: driver.dfy ===
/** The execution driver (`Execute`): the fatal preparation stages, the step
    loop that stops at the first failing step, and the unbound output pass
    that always follows the loop and never changes its result. */
module Driver {
  import opened Outcomes
  import opened Files
  import opened Collaborators
  import opened Channel
  import opened Unbound
  import opened Images
  import opened StepExecutor
  import opened StepLoop

  /** `executeStep` as the loop's step runner. */
  function StepRunner(env: Env, action: string, defs: map<string, OutputDefinition>): (run: Runner)
    requires Faithful(env.enumerate)
    ensures forall v, s :: run(v, s) == ExecuteStep(env, action, defs, v, s)
    ensures forall v, s :: OnlyInvocations(run(v, s).trace)
  {
    (v, s) => ExecuteStep(env, action, defs, v, s)
  }

  /** The preparation stages all passed (and the channel directory exists),
      or the first of them failed. */
  datatype Preparation = Ready(world: World) | Aborted(fs: FileSystem, error: Error)

  /** The fatal stages before the step loop, in order: validate the manifest,
      prepare the environment, load the image metadata, resolve the images,
      create the channel directory. */
  function Prepare(env: Env, m: RuntimeManifest, fs: FileSystem): (r: Preparation)
    ensures r.Ready? ==> MixinOutputsDir in r.world.fs.dirs
    ensures env.validate(m.state).Fail? ==> r == Aborted(fs, env.validate(m.state).error)
    ensures env.validate(m.state).Pass? && env.prepare(m.state, fs).outcome.Fail? ==>
              r == Aborted(env.prepare(m.state, fs).fs, env.prepare(m.state, fs).outcome.error)
    ensures env.validate(m.state).Pass? && env.prepare(m.state, fs).outcome.Pass? ==>
              var prepared := env.prepare(m.state, fs).fs;
              GetImageMappingFiles(env, prepared).Err? ==> r == Aborted(prepared, GetImageMappingFiles(env, prepared).error)
    ensures env.validate(m.state).Pass? && env.prepare(m.state, fs).outcome.Pass? &&
            GetImageMappingFiles(env, env.prepare(m.state, fs).fs).Ok? ==>
              var prepared := env.prepare(m.state, fs).fs;
              var mapping := GetImageMappingFiles(env, prepared).value;
              var resolved := env.resolveImages(m.state, mapping.bundle, mapping.relocation);
              && (resolved.Err? ==> r == Aborted(prepared, Wrapped(ResolveImagesStage, resolved.error)))
              && (resolved.Ok? && !CanMkdirAll(prepared, MixinOutputsDir) ==>
                    r == Aborted(prepared, Wrapped(CreateMixinOutputsDir, FsFailure(MkdirOp, MixinOutputsDir))))
              && (resolved.Ok? && CanMkdirAll(prepared, MixinOutputsDir) ==>
                    r.Ready? && r.world.manifest == resolved.value &&
                    r.world.fs == prepared.(dirs := prepared.dirs + {MixinOutputsDir}))
    ensures r.Ready? <==>
              && env.validate(m.state).Pass?
              && env.prepare(m.state, fs).outcome.Pass?
              && GetImageMappingFiles(env, env.prepare(m.state, fs).fs).Ok?
              && env.resolveImages(m.state, GetImageMappingFiles(env, env.prepare(m.state, fs).fs).value.bundle,
                                   GetImageMappingFiles(env, env.prepare(m.state, fs).fs).value.relocation).Ok?
              && CanMkdirAll(env.prepare(m.state, fs).fs, MixinOutputsDir)
  {
    match env.validate(m.state)
    case Fail(e) => Aborted(fs, e)
    case Pass =>
      var prepared := env.prepare(m.state, fs);
      if prepared.outcome.Fail? then Aborted(prepared.fs, prepared.outcome.error)
      else match GetImageMappingFiles(env, prepared.fs)
        case Err(e) => Aborted(prepared.fs, e)
        case Ok(mapping) =>
          match env.resolveImages(m.state, mapping.bundle, mapping.relocation)
          case Err(e) => Aborted(prepared.fs, Wrapped(ResolveImagesStage, e))
          case Ok(state) =>
            match MkdirAll(prepared.fs, MixinOutputsDir)
            case Err(e) => Aborted(prepared.fs, Wrapped(CreateMixinOutputsDir, e))
            case Ok(fs1) => Ready(World(fs1, state))
  }

  /** What `Execute` leaves behind and reports. */
  datatype Report = Report(fs: FileSystem, manifest: ManifestState, outcome: Outcome, executed: nat, trace: seq<Event>)

  /** `Execute`. A failure before the loop is returned at once: no step runs
      and no output is collected. Otherwise the steps run in order until the
      first failure, then the unbound output pass runs exactly once, after
      every step that ran, and the loop's result is returned whatever the
      pass reported. */
  function Execute(env: Env, m: RuntimeManifest, fs: FileSystem): (r: Report)
    requires Faithful(env.enumerate)
    ensures Prepare(env, m, fs).Aborted? ==>
              && r.outcome == Fail(Prepare(env, m, fs).error) && r.executed == 0 && r.trace == []
              && r.fs == Prepare(env, m, fs).fs && r.manifest == m.state
    ensures Prepare(env, m, fs).Ready? ==>
              var loop := RunLoop(StepRunner(env, m.action, m.outputs), Prepare(env, m, fs).world, m.steps);
              && r.outcome == loop.outcome
              && r.executed == loop.executed
              && r.trace == loop.trace + [UnboundCollected]
              && r.manifest == loop.world.manifest
              && r.fs == ApplyUnboundBundleOutputs(m.action, m.outputs, env.getOutputs(loop.world.manifest),
                                                   loop.world.fs, env.enumerate).fs
              && r.fs == ApplyUnboundBundleOutputsAsWritten(m.action, m.outputs, env.getOutputs(loop.world.manifest),
                                                            loop.world.fs, env.enumerate).fs
    ensures forall i :: 0 <= i < |r.trace| && r.trace[i].UnboundCollected? ==> i == |r.trace| - 1
    ensures r.outcome.Pass? ==> r.executed == |m.steps|
  {
    match Prepare(env, m, fs)
    case Aborted(fs1, e) => Report(fs1, m.state, Fail(e), 0, [])
    case Ready(w) =>
      var loop := RunLoop(StepRunner(env, m.action, m.outputs), w, m.steps);
      // The pass's outcome is only logged; its effect is the same as the
      // pass as written.
      var collected := ApplyUnboundBundleOutputs(m.action, m.outputs, env.getOutputs(loop.world.manifest),
                                                 loop.world.fs, env.enumerate);
      var trace := loop.trace + [UnboundCollected];
      assert forall i :: 0 <= i < |loop.trace| ==> trace[i] == loop.trace[i];
      Report(collected.fs, loop.world.manifest, loop.outcome, loop.executed, trace)
  }

  /** If step k is the first to fail, `Execute` returns exactly its error,
      no mixin is invoked for a later step, the unbound pass still runs once
      at the end, and the steps after k could as well not exist. */
  lemma ExecuteStopsAtFirstFailingStep(env: Env, m: RuntimeManifest, fs: FileSystem, k: nat)
    requires Faithful(env.enumerate)
    requires Prepare(env, m, fs).Ready?
    requires k < |m.steps|
    requires RunLoop(StepRunner(env, m.action, m.outputs), Prepare(env, m, fs).world, m.steps[..k]).outcome.Pass?
    requires ExecuteStep(env, m.action, m.outputs,
                         RunLoop(StepRunner(env, m.action, m.outputs), Prepare(env, m, fs).world, m.steps[..k]).world,
                         m.steps[k]).outcome.Fail?
    ensures var w := Prepare(env, m, fs).world;
            var prefix := RunLoop(StepRunner(env, m.action, m.outputs), w, m.steps[..k]);
            var failing := ExecuteStep(env, m.action, m.outputs, prefix.world, m.steps[k]);
            var r := Execute(env, m, fs);
            && r.outcome == failing.outcome
            && r.executed == k + 1
            && r.trace == prefix.trace + failing.trace + [UnboundCollected]
            && r == Execute(env, m.(steps := m.steps[..k + 1]), fs)
  {
    var w := Prepare(env, m, fs).world;
    FirstFailingStep(StepRunner(env, m.action, m.outputs), w, m.steps, k);
    assert Prepare(env, m.(steps := m.steps[..k + 1]), fs) == Prepare(env, m, fs);
  }

  /** The action succeeds exactly when the preparation succeeds and every
      step does, whatever the unbound output pass reports. */
  lemma ExecuteSucceedsIffEveryStepDoes(env: Env, m: RuntimeManifest, fs: FileSystem)
    requires Faithful(env.enumerate)
    ensures Execute(env, m, fs).outcome.Pass? <==>
              Prepare(env, m, fs).Ready? &&
              forall k :: 0 <= k < |m.steps| ==>
                var prefix := RunLoop(StepRunner(env, m.action, m.outputs), Prepare(env, m, fs).world, m.steps[..k]);
                prefix.outcome.Pass? && ExecuteStep(env, m.action, m.outputs, prefix.world, m.steps[k]).outcome.Pass?
  {
    if Prepare(env, m, fs).Ready? {
      SucceedsIffEveryStepDoes(StepRunner(env, m.action, m.outputs), Prepare(env, m, fs).world, m.steps);
    }
  }
}

=== FILE: files.dfy ===
/** The filesystem the runtime works on, as an immutable value.

    Regular files map a path to their contents; directories are a set of
    paths. An operation fails for a structural reason (the file is missing,
    the path is a directory) or because the environment refuses that access
    to that path (`denied`: permissions, a full disk, an I/O error). */
module Files {
  import opened Outcomes

  type Path = string

  datatype Access = Access(op: FsOp, path: Path)

  datatype FileSystem = FileSystem(files: map<Path, string>, dirs: set<Path>, denied: set<Access>)

  /** The filesystem after an operation that may fail, and whether it did. */
  datatype Effect = Effect(fs: FileSystem, outcome: Outcome)

  predicate Allowed(fs: FileSystem, op: FsOp, p: Path)
  {
    Access(op, p) !in fs.denied
  }

  /** `filepath.Join(dir, name)`, without normalisation. */
  function Join(dir: Path, name: string): Path
  {
    dir + "/" + name
  }

  /** A name a directory listing can return: non-empty, no separator. */
  predicate IsEntryName(name: string)
  {
    name != "" && '/' !in name
  }

  /** `p` names an entry directly inside `dir`. */
  predicate IsChildPath(dir: Path, p: Path)
  {
    |p| > |dir| + 1 && p[..|dir|] == dir && p[|dir|] == '/' && IsEntryName(p[|dir| + 1..])
  }

  function ChildName(dir: Path, p: Path): (name: string)
    requires IsChildPath(dir, p)
    ensures IsEntryName(name) && Join(dir, name) == p
  {
    assert p == p[..|dir|] + [p[|dir|]] + p[|dir| + 1..];
    p[|dir| + 1..]
  }

  /** Different names give different paths in the same directory. */
  lemma JoinInjective(dir: Path, a: string, b: string)
    requires Join(dir, a) == Join(dir, b)
    ensures a == b
  {
    assert a == Join(dir, a)[|dir| + 1..];
    assert b == Join(dir, b)[|dir| + 1..];
  }

  /** The names a directory listing of `dir` returns: every file or
      directory directly inside it. */
  function Children(fs: FileSystem, dir: Path): set<string>
  {
    set p | p in fs.files.Keys + fs.dirs && IsChildPath(dir, p) :: ChildName(dir, p)
  }

  /** A file the runtime may write: it is not a directory and writing it is
      not refused. */
  predicate Writable(fs: FileSystem, p: Path)
  {
    p !in fs.dirs && Allowed(fs, WriteOp, p)
  }

  /** `Stat(p)` succeeds. */
  predicate Exists(fs: FileSystem, p: Path)
  {
    (p in fs.files || p in fs.dirs) && Allowed(fs, StatOp, p)
  }

  function ReadFile(fs: FileSystem, p: Path): Result<string>
  {
    if p in fs.files && Allowed(fs, ReadOp, p) then Ok(fs.files[p]) else Err(FsFailure(ReadOp, p))
  }

  function WriteFile(fs: FileSystem, p: Path, data: string): Result<FileSystem>
  {
    if Writable(fs, p) then Ok(fs.(files := fs.files[p := data])) else Err(FsFailure(WriteOp, p))
  }

  function Remove(fs: FileSystem, p: Path): Result<FileSystem>
  {
    if p in fs.files && Allowed(fs, RemoveOp, p) then Ok(fs.(files := fs.files - {p}))
    else Err(FsFailure(RemoveOp, p))
  }

  /** `MkdirAll(p)` succeeds on `fs`: `p` already is a directory, or no file
      is in the way and the directory may be made. */
  predicate CanMkdirAll(fs: FileSystem, p: Path)
  {
    p in fs.dirs || (p !in fs.files && Allowed(fs, MkdirOp, p))
  }

  /** `MkdirAll(p)`: an existing directory is success with nothing to do;
      otherwise the directory is made unless a file is in the way or making
      it is refused. Ancestors are not modelled. */
  function MkdirAll(fs: FileSystem, p: Path): (r: Result<FileSystem>)
    ensures r.Ok? <==> CanMkdirAll(fs, p)
    ensures r.Ok? ==> r.value == fs.(dirs := fs.dirs + {p})
    ensures r.Err? ==> r.error == FsFailure(MkdirOp, p)
  {
    if p in fs.dirs then
      assert fs.dirs + {p} == fs.dirs;
      Ok(fs)
    else if p !in fs.files && Allowed(fs, MkdirOp, p) then Ok(fs.(dirs := fs.dirs + {p}))
    else Err(FsFailure(MkdirOp, p))
  }

  function ReadDir(fs: FileSystem, dir: Path): Result<set<string>>
  {
    if dir in fs.dirs && Allowed(fs, ListOp, dir) then Ok(Children(fs, dir)) else Err(FsFailure(ListOp, dir))
  }

  /** `Context.CopyFile(src, dst)`: stat the source, read it, write the
      destination. */
  function CopyFile(fs: FileSystem, src: Path, dst: Path): Result<FileSystem>
  {
    if !Exists(fs, src) then Err(FsFailure(StatOp, src))
    else match ReadFile(fs, src)
      case Err(e) => Err(e)
      case Ok(data) => WriteFile(fs, dst, data)
  }

  /** `CopyFile(src, dst)` succeeds on `fs`. */
  predicate Copyable(fs: FileSystem, src: Path, dst: Path)
  {
    src in fs.files && Allowed(fs, StatOp, src) && Allowed(fs, ReadOp, src) && Writable(fs, dst)
  }

  lemma CopyFileSpec(fs: FileSystem, src: Path, dst: Path)
    ensures CopyFile(fs, src, dst).Ok? <==> Copyable(fs, src, dst)
    ensures CopyFile(fs, src, dst).Ok? ==>
              CopyFile(fs, src, dst).value == fs.(files := fs.files[dst := fs.files[src]])
  {
  }

  /** `a` and `b` hold the same files, with the same contents, outside `touched`. */
  ghost predicate SameOutside(a: map<Path, string>, b: map<Path, string>, touched: set<Path>)
  {
    forall p :: p !in touched ==> (p in a <==> p in b) && (p in a ==> a[p] == b[p])
  }

  /** Every file of `a` is a file of `b` with the same contents. */
  ghost predicate SubMap(a: map<Path, string>, b: map<Path, string>)
  {
    forall p :: p in a ==> p in b && a[p] == b[p]
  }
}

=== FILE: images.dfy ===
/** Loading the image metadata the manifest's images are resolved against
    (`getImageMappingFiles`): the bundle.json the runtime was started with
    and the optional relocation mapping. */
module Images {
  import opened Outcomes
  import opened Files
  import opened Collaborators

  const BundleFile: Path := "/cnab/bundle.json"
  const RelocationFile: Path := "/cnab/app/relocation-mapping.json"

  /** The loaded bundle and the relocation mapping (original image reference
      to relocated reference; empty when there is none). */
  datatype ImageMapping = ImageMapping(bundle: BundleMetadata, relocation: map<string, string>)

  /** The bundle.json can be read and loaded. */
  predicate BundleLoads(env: Env, fs: FileSystem)
  {
    ReadFile(fs, BundleFile).Ok? && env.loadBundle(fs.files[BundleFile]).Ok?
  }

  /** `getImageMappingFiles`. A bundle.json that cannot be read or loaded is
      an error. A relocation file that cannot be stat'd is treated as absent:
      the mapping is empty and there is no error. A relocation file that can
      be stat'd must be readable and decode, or that is an error. */
  function GetImageMappingFiles(env: Env, fs: FileSystem): (r: Result<ImageMapping>)
    ensures r.Ok? <==>
              && BundleLoads(env, fs)
              && (Exists(fs, RelocationFile) ==>
                    ReadFile(fs, RelocationFile).Ok? && env.parseRelocation(fs.files[RelocationFile]).Ok?)
    ensures r.Ok? ==> r.value.bundle == env.loadBundle(fs.files[BundleFile]).value
    ensures r.Ok? && !Exists(fs, RelocationFile) ==> r.value.relocation == map[]
    ensures r.Ok? && Exists(fs, RelocationFile) ==>
              r.value.relocation == env.parseRelocation(fs.files[RelocationFile]).value
    ensures !ReadFile(fs, BundleFile).Ok? ==> r == Err(Wrapped(ReadBundleFile, FsFailure(ReadOp, BundleFile)))
    ensures ReadFile(fs, BundleFile).Ok? && env.loadBundle(fs.files[BundleFile]).Err? ==>
              r == Err(Wrapped(LoadBundleFile, env.loadBundle(fs.files[BundleFile]).error))
    ensures BundleLoads(env, fs) && Exists(fs, RelocationFile) && !ReadFile(fs, RelocationFile).Ok? ==>
              r == Err(Wrapped(ReadRelocationFile, FsFailure(ReadOp, RelocationFile)))
    ensures BundleLoads(env, fs) && Exists(fs, RelocationFile) && ReadFile(fs, RelocationFile).Ok? &&
            env.parseRelocation(fs.files[RelocationFile]).Err? ==>
              r == Err(Wrapped(LoadRelocationFile, env.parseRelocation(fs.files[RelocationFile]).error))
    ensures r.Err? ==>
              r.error.Wrapped? && r.error.stage in {ReadBundleFile, LoadBundleFile, ReadRelocationFile, LoadRelocationFile}
  {
    match ReadFile(fs, BundleFile)
    case Err(e) => Err(Wrapped(ReadBundleFile, e))
    case Ok(bundleBytes) =>
      match env.loadBundle(bundleBytes)
      case Err(e) => Err(Wrapped(LoadBundleFile, e))
      case Ok(bundle) =>
        if !Exists(fs, RelocationFile) then Ok(ImageMapping(bundle, map[]))
        else match ReadFile(fs, RelocationFile)
          case Err(e) => Err(Wrapped(ReadRelocationFile, e))
          case Ok(relocationBytes) =>
            match env.parseRelocation(relocationBytes)
            case Err(e) => Err(Wrapped(LoadRelocationFile, e))
            case Ok(relocation) => Ok(ImageMapping(bundle, relocation))
  }

  /** A bundle without a relocation file is resolved against an empty
      mapping, whatever the relocation decoder would have said. */
  lemma MissingRelocationIsEmpty(env: Env, fs: FileSystem)
    requires BundleLoads(env, fs)
    requires RelocationFile !in fs.files && RelocationFile !in fs.dirs
    ensures GetImageMappingFiles(env, fs) == Ok(ImageMapping(env.loadBundle(fs.files[BundleFile]).value, map[]))
  {
  }
}

=== FILE: loop.dfy ===
/** The step loop of `Execute`: run the steps of the action in order and stop
    at the first one that fails. The loop does not depend on what a step
    does, so it is stated for any step runner; `Driver` runs it with
    `ExecuteStep`. */
module StepLoop {
  import opened Outcomes
  import opened Collaborators
  import opened StepExecutor

  /** What running one step from a state gives. */
  type Runner = (World, Option<Step>) -> StepRun

  /** The loop's result: the state reached, the first step error (or none),
      how many steps were entered, and what was observed. */
  datatype StepsRun = StepsRun(world: World, outcome: Outcome, executed: nat, trace: seq<Event>)

  /** Every event of the trace is a mixin invocation. */
  predicate OnlyInvocations(trace: seq<Event>)
  {
    forall i :: 0 <= i < |trace| ==> trace[i].Invoked?
  }

  /** The loop over `GetSteps()`: each step runs from the state the previous
      one left, and the first error ends the loop and becomes its result. */
  function RunLoop(run: Runner, w: World, steps: seq<Option<Step>>): (r: StepsRun)
    ensures r.executed <= |steps|
    ensures r.outcome.Pass? ==> r.executed == |steps|
    ensures r.outcome.Fail? ==> r.executed >= 1
    ensures (forall v, s :: OnlyInvocations(run(v, s).trace)) ==> OnlyInvocations(r.trace)
    decreases |steps|
  {
    if steps == [] then StepsRun(w, Pass, 0, [])
    else
      var first := run(w, steps[0]);
      if first.outcome.Fail? then StepsRun(first.world, first.outcome, 1, first.trace)
      else
        var rest := RunLoop(run, first.world, steps[1..]);
        StepsRun(rest.world, rest.outcome, 1 + rest.executed, first.trace + rest.trace)
  }

  /** Once the steps `a` have failed, steps placed after them are never run:
      they change neither the result, nor the state, nor what is observed. */
  lemma {:induction false} FailureIgnoresLaterSteps(run: Runner, w: World, a: seq<Option<Step>>, b: seq<Option<Step>>)
    requires RunLoop(run, w, a).outcome.Fail?
    ensures RunLoop(run, w, a + b) == RunLoop(run, w, a)
    decreases |a|
  {
    assert (a + b)[0] == a[0];
    assert (a + b)[1..] == a[1..] + b;
    var first := run(w, a[0]);
    if first.outcome.Pass? {
      FailureIgnoresLaterSteps(run, first.world, a[1..], b);
    }
  }

  /** When the steps `a` all succeed, running `a + b` is running `a` and
      then running `b` from the state `a` reached. */
  lemma {:induction false} SuccessComposes(run: Runner, w: World, a: seq<Option<Step>>, b: seq<Option<Step>>)
    requires RunLoop(run, w, a).outcome.Pass?
    ensures var ra := RunLoop(run, w, a);
            var rb := RunLoop(run, ra.world, b);
            RunLoop(run, w, a + b) == StepsRun(rb.world, rb.outcome, |a| + rb.executed, ra.trace + rb.trace)
    decreases |a|
  {
    if a == [] {
      assert a + b == b;
    } else {
      assert (a + b)[0] == a[0];
      assert (a + b)[1..] == a[1..] + b;
      var first := run(w, a[0]);
      SuccessComposes(run, first.world, a[1..], b);
      var ra' := RunLoop(run, first.world, a[1..]);
      var rb := RunLoop(run, ra'.world, b);
      assert first.trace + (ra'.trace + rb.trace) == (first.trace + ra'.trace) + rb.trace;
    }
  }

  /** The first failing step decides the loop: if steps 0..k-1 succeed and
      step k fails, the loop returns exactly step k's error after entering
      k + 1 steps, and is the same as the loop over steps 0..k alone. */
  lemma FirstFailingStep(run: Runner, w: World, steps: seq<Option<Step>>, k: nat)
    requires k < |steps|
    requires RunLoop(run, w, steps[..k]).outcome.Pass?
    requires run(RunLoop(run, w, steps[..k]).world, steps[k]).outcome.Fail?
    ensures var prefix := RunLoop(run, w, steps[..k]);
            var failing := run(prefix.world, steps[k]);
            var r := RunLoop(run, w, steps);
            && r.outcome == failing.outcome
            && r.executed == k + 1
            && r.world == failing.world
            && r.trace == prefix.trace + failing.trace
            && r == RunLoop(run, w, steps[..k + 1])
  {
    assert steps == steps[..k] + steps[k..];
    SuccessComposes(run, w, steps[..k], steps[k..]);
    assert steps[k..][0] == steps[k];
    assert steps[..k + 1] == steps[..k] + [steps[k]];
    SuccessComposes(run, w, steps[..k], [steps[k]]);
  }

  /** Conversely, a failing loop failed at its last entered step, which the
      steps before it reached without error. */
  lemma {:induction false} FailureIsAtLastEnteredStep(run: Runner, w: World, steps: seq<Option<Step>>)
    requires RunLoop(run, w, steps).outcome.Fail?
    ensures var r := RunLoop(run, w, steps);
            var prefix := RunLoop(run, w, steps[..r.executed - 1]);
            prefix.outcome.Pass? && run(prefix.world, steps[r.executed - 1]) == StepRun(r.world, r.outcome, run(prefix.world, steps[r.executed - 1]).trace)
    decreases |steps|
  {
    var first := run(w, steps[0]);
    if first.outcome.Fail? {
      assert steps[..0] == [];
    } else {
      var tail := steps[1..];
      var rest := RunLoop(run, first.world, tail);
      FailureIsAtLastEnteredStep(run, first.world, tail);
      var k' := rest.executed - 1;
      var before := steps[..k' + 1];
      assert before[0] == steps[0];
      assert before[1..] == tail[..k'];
      assert steps[k' + 1] == tail[k'];
    }
  }

  /** A loop succeeds exactly when every step succeeds from the state the
      steps before it reached. */
  lemma SucceedsIffEveryStepDoes(run: Runner, w: World, steps: seq<Option<Step>>)
    ensures RunLoop(run, w, steps).outcome.Pass? <==>
              forall k :: 0 <= k < |steps| ==>
                RunLoop(run, w, steps[..k]).outcome.Pass? && run(RunLoop(run, w, steps[..k]).world, steps[k]).outcome.Pass?
  {
    var r := RunLoop(run, w, steps);
    if r.outcome.Pass? {
      forall k | 0 <= k < |steps|
        ensures RunLoop(run, w, steps[..k]).outcome.Pass? && run(RunLoop(run, w, steps[..k]).world, steps[k]).outcome.Pass?
      {
        var prefix := RunLoop(run, w, steps[..k]);
        assert steps == steps[..k] + steps[k..];
        if prefix.outcome.Fail? {
          FailureIgnoresLaterSteps(run, w, steps[..k], steps[k..]);
        } else if run(prefix.world, steps[k]).outcome.Fail? {
          FirstFailingStep(run, w, steps, k);
        }
      }
    } else {
      FailureIsAtLastEnteredStep(run, w, steps);
    }
  }
}

=== FILE: outcomes.dfy ===
/** Values and errors shared by the whole runtime model.

    Go returns `error` values that the runtime wraps with a stage-specific
    message (`errors.Wrap`). The model keeps the structure of that wrapping
    (which stage wrapped which cause) and drops the message text. */
module Outcomes {

  /** A Go pointer that may be nil. */
  datatype Option<+T> = None | Some(value: T)

  /** The filesystem operation that failed. */
  datatype FsOp = StatOp | ReadOp | WriteOp | RemoveOp | MkdirOp | ListOp

  /** The context a runtime error is wrapped with before it is returned. */
  datatype Stage =
    | ReadBundleFile          // "couldn't read runtime bundle.json"
    | LoadBundleFile          // "couldn't load runtime bundle.json"
    | ReadRelocationFile      // "couldn't read relocation file"
    | LoadRelocationFile      // "couldn't load relocation file"
    | ResolveImagesStage      // "unable to resolve bundle images"
    | CreateMixinOutputsDir   // "could not create outputs directory"
    | ResolveStepStage        // "unable to resolve step"
    | RunMixin                // "mixin execution failed"
    | ReadStepOutputs         // "could not read step outputs"
    | ListMixinOutputs        // "could not list"
    | ReadMixinOutputFile     // "could not read output file"
    | EnsureBundleOutputsDir  // "unable to ensure CNAB outputs directory exists"
    | WriteBundleOutput       // "unable to write output file"
    | CopyBundleOutput(from: string, to: string)  // "unable to copy output file from <from> to <to>"

  datatype Error =
    | FsFailure(op: FsOp, path: string)        // an operation of the filesystem failed
    | Collaborator(reason: string)             // an error produced by a collaborator
    | Wrapped(stage: Stage, cause: Error)      // `errors.Wrap(cause, <stage message>)`
    | Aggregate(errors: seq<Error>)            // a `multierror.Error`

  /** A value or the error that prevented it. */
  datatype Result<+T> = Ok(value: T) | Err(error: Error)

  /** A Go function that returns only an `error`: nil (`Pass`) or not. */
  datatype Outcome = Pass | Fail(error: Error)

  /** True when no string occurs twice in `xs`. */
  predicate Distinct(xs: seq<string>)
  {
    forall i, j :: 0 <= i < j < |xs| ==> xs[i] != xs[j]
  }

  /** `xs` lists every element of `s` exactly once: one order in which Go
      may visit the keys of a map or the entries of a directory. */
  predicate Enumerates(xs: seq<string>, s: set<string>)
  {
    && Distinct(xs)
    && (forall x :: x in xs ==> x in s)
    && (forall x :: x in s ==> x in xs)
  }

  /** An enumeration oracle that always produces a faithful order. Go leaves
      the order of map iteration unspecified, so the model is stated for
      every faithful enumeration. */
  ghost predicate Faithful(enumerate: set<string> -> seq<string>)
  {
    forall s :: Enumerates(enumerate(s), s)
  }

  /** The value Go reads from a `map[string]string` for `key`: the empty
      string when the key is absent. */
  function Lookup(m: map<string, string>, key: string): string
  {
    if key in m then m[key] else ""
  }
}

=== FILE: scope.dfy ===
/** Action scoping of declared outputs (`applyTo`). */
module Scope {
  import opened Collaborators

  /** The loop over `applyTo`: true as soon as an entry equals the action. */
  function ListsAction(applyTo: seq<string>, action: string): (r: bool)
    ensures r <==> action in applyTo
  {
    if applyTo == [] then false
    else if applyTo[0] == action then true
    else
      assert applyTo == [applyTo[0]] + applyTo[1..];
      ListsAction(applyTo[1..], action)
  }

  /** `shouldApplyOutput`: an output applies to every action when its
      `applyTo` list is empty, and otherwise only to the actions it lists. */
  function ShouldApplyOutput(action: string, def: OutputDefinition): (r: bool)
    ensures def.applyTo == [] ==> r
    ensures def.applyTo != [] ==> (r <==> exists i :: 0 <= i < |def.applyTo| && def.applyTo[i] == action)
  {
    if |def.applyTo| == 0 then true else ListsAction(def.applyTo, action)
  }

  /** An output scoped to install is applied for install and not for upgrade. */
  lemma InstallOnlyOutput(def: OutputDefinition)
    requires def.applyTo == ["install"]
    ensures ShouldApplyOutput("install", def)
    ensures !ShouldApplyOutput("upgrade", def)
  {
    assert def.applyTo[0] == "install";
  }
}

=== FILE: step.dfy ===
/** The step executor (`executeStep`): resolve the step, run its mixin, read
    the outputs it produced, record them in the manifest, bind them to the
    bundle outputs. Each stage runs only when the previous one succeeded. */
module StepExecutor {
  import opened Outcomes
  import opened Files
  import opened Collaborators
  import opened Scope
  import opened Channel
  import opened Binder

  /** The state a step changes: the filesystem and the manifest's own state. */
  datatype World = World(fs: FileSystem, manifest: ManifestState)

  /** What an observer of the runtime sees happen: a mixin invoked with a
      command, or the unbound output pass run. */
  datatype Event = Invoked(mixin: string, command: CommandOptions) | UnboundCollected

  datatype StepRun = StepRun(world: World, outcome: Outcome, trace: seq<Event>)

  /** The command sent to the mixin for one resolved step: the action as the
      command, an envelope holding the action and only that step, and the
      runtime flag set. */
  function Envelope(action: string, step: Step): CommandOptions
  {
    CommandOptions(action, ActionInput(action, [step]), true)
  }

  /** The filesystem right after the mixin of a resolved step ran. */
  function MixinEffect(env: Env, action: string, w: World, resolved: Step): Effect
  {
    env.runMixin(w.fs, resolved.mixin, Envelope(action, resolved))
  }

  /** A store file is never inside the channel directory. */
  lemma StoreIsNotChannel(name: string)
    ensures !IsChildPath(MixinOutputsDir, Join(BundleOutputsDir, name))
  {
    var p := Join(BundleOutputsDir, name);
    // Both paths start with the 10 characters "/cnab/app/"; the next one is
    // 'o' in the store path and 'p' in the channel path.
    assert p[10] != MixinOutputsDir[10];
  }

  /** Binding never writes into the channel: every path directly inside it
      is present after binding exactly when it was before, with the same
      contents; so a channel that draining left empty stays empty. */
  lemma BindLeavesChannelAlone(action: string, defs: map<string, OutputDefinition>, outputs: map<string, string>,
                               fs: FileSystem, enumerate: set<string> -> seq<string>)
    requires Faithful(enumerate)
    ensures var after := ApplyStepOutputsToBundle(action, defs, outputs, fs, enumerate).fs;
            forall p :: IsChildPath(MixinOutputsDir, p) ==>
              (p in after.files <==> p in fs.files) && (p in fs.files ==> after.files[p] == fs.files[p])
    ensures ChannelFiles(fs) == {} ==> ChannelFiles(ApplyStepOutputsToBundle(action, defs, outputs, fs, enumerate).fs) == {}
  {
    var after := ApplyStepOutputsToBundle(action, defs, outputs, fs, enumerate).fs;
    forall p | IsChildPath(MixinOutputsDir, p)
      ensures p !in BoundPaths(action, defs, outputs)
    {
      if p in BoundPaths(action, defs, outputs) {
        var k :| k in outputs && Binds(action, defs, outputs, k) && OutputPath(defs[k]) == p;
        StoreIsNotChannel(defs[k].name);
      }
    }
    if ChannelFiles(fs) == {} {
      forall p | p in after.files && IsChildPath(MixinOutputsDir, p) && p !in after.dirs
        ensures p in fs.files && p !in fs.dirs
      {
      }
    }
  }

  /** `executeStep`. A nil step does nothing. Otherwise the step is resolved
      (failure: nothing else happens), its mixin is invoked once with an
      envelope holding only this step (failure: the channel is not read), the
      channel is drained (failure: the manifest records nothing and no bundle
      output is written), the outputs are recorded in the manifest (failure:
      no bundle output is written), and finally bound to the bundle outputs.
      A step that succeeds leaves the channel empty, and every declared,
      in-scope output its mixin produced is in the store verbatim. */
  function ExecuteStep(env: Env, action: string, defs: map<string, OutputDefinition>, w: World,
                       step: Option<Step>): (r: StepRun)
    requires Faithful(env.enumerate)
    ensures step.None? ==> r == StepRun(w, Pass, [])
    ensures step.Some? && env.resolveStep(w.manifest, step.value).Err? ==>
              r == StepRun(w, Fail(Wrapped(ResolveStepStage, env.resolveStep(w.manifest, step.value).error)), [])
    ensures step.Some? && env.resolveStep(w.manifest, step.value).Ok? ==>
              var s := env.resolveStep(w.manifest, step.value).value;
              var ran := MixinEffect(env, action, w, s);
              var drain := ReadMixinOutputs(ran.fs, env.enumerate);
              && r.trace == [Invoked(s.mixin, Envelope(action, s))]
              && (ran.outcome.Fail? ==>
                    r == StepRun(World(ran.fs, w.manifest), Fail(Wrapped(RunMixin, ran.outcome.error)), r.trace))
              && (ran.outcome.Pass? && drain.outputs.Err? ==>
                    r == StepRun(World(drain.fs, w.manifest), Fail(Wrapped(ReadStepOutputs, drain.outputs.error)), r.trace))
              && (ran.outcome.Pass? && drain.outputs.Ok? &&
                  env.applyStepOutputs(w.manifest, drain.outputs.value).Err? ==>
                    r == StepRun(World(drain.fs, w.manifest),
                                 Fail(env.applyStepOutputs(w.manifest, drain.outputs.value).error), r.trace))
              && (ran.outcome.Pass? && drain.outputs.Ok? &&
                  env.applyStepOutputs(w.manifest, drain.outputs.value).Ok? ==>
                    var bound := ApplyStepOutputsToBundle(action, defs, drain.outputs.value, drain.fs, env.enumerate);
                    r == StepRun(World(bound.fs, env.applyStepOutputs(w.manifest, drain.outputs.value).value),
                                 bound.outcome, r.trace))
              && (r.outcome.Pass? ==>
                    && ran.outcome.Pass? && drain.outputs.Ok?
                    && env.applyStepOutputs(w.manifest, drain.outputs.value) == Ok(r.world.manifest)
                    && ChannelFiles(r.world.fs) == {}
                    && (WellKeyed(defs) ==>
                          forall n :: Join(MixinOutputsDir, n) in ChannelFiles(ran.fs) && n in defs &&
                                      ShouldApplyOutput(action, defs[n]) ==>
                            Join(BundleOutputsDir, n) in r.world.fs.files &&
                            r.world.fs.files[Join(BundleOutputsDir, n)] == ran.fs.files[Join(MixinOutputsDir, n)]))
  {
    match step
    case None => StepRun(w, Pass, [])
    case Some(original) =>
      match env.resolveStep(w.manifest, original)
      case Err(e) => StepRun(w, Fail(Wrapped(ResolveStepStage, e)), [])
      case Ok(s) =>
        var trace := [Invoked(s.mixin, Envelope(action, s))];
        var ran := MixinEffect(env, action, w, s);
        if ran.outcome.Fail? then StepRun(World(ran.fs, w.manifest), Fail(Wrapped(RunMixin, ran.outcome.error)), trace)
        else
          var drain := ReadMixinOutputs(ran.fs, env.enumerate);
          match drain.outputs
          case Err(e) => StepRun(World(drain.fs, w.manifest), Fail(Wrapped(ReadStepOutputs, e)), trace)
          case Ok(outputs) =>
            match env.applyStepOutputs(w.manifest, outputs)
            case Err(e) => StepRun(World(drain.fs, w.manifest), Fail(e), trace)
            case Ok(manifest) =>
              BindLeavesChannelAlone(action, defs, outputs, drain.fs, env.enumerate);
              var bound := ApplyStepOutputsToBundle(action, defs, outputs, drain.fs, env.enumerate);
              StepRun(World(bound.fs, manifest), bound.outcome, trace)
  }
}

=== FILE: unbound.dfy ===
/** The unbound output resolver (`applyUnboundBundleOutputs`): after the
    steps, every declared output with a file path that no step recorded a
    value for is copied from that path into the bundle output store. */
module Unbound {
  import opened Outcomes
  import opened Files
  import opened Collaborators
  import opened Scope
  import opened Binder

  /** The declared output `key` is collected by the pass: the manifest holds
      no recorded value for its name (an absent and an empty value are the
      same), it names a path, and it is in scope for `action`. */
  predicate Collects(action: string, defs: map<string, OutputDefinition>, recorded: map<string, string>, key: string)
  {
    && key in defs
    && Lookup(recorded, defs[key].name) == ""
    && defs[key].path != ""
    && ShouldApplyOutput(action, defs[key])
  }

  /** One copy that failed, and for which declared output. */
  datatype CopyFailure = CopyFailure(output: string, error: Error)

  /** The filesystem after the copies, and every copy that failed. */
  datatype Collection = Collection(fs: FileSystem, failures: seq<CopyFailure>)

  function FailedOutputs(failures: seq<CopyFailure>): set<string>
  {
    set i | 0 <= i < |failures| :: failures[i].output
  }

  function Errors(failures: seq<CopyFailure>): (es: seq<Error>)
    ensures |es| == |failures|
  {
    seq(|failures|, i requires 0 <= i < |failures| => failures[i].error)
  }

  /** `e` reports a failed copy of `def`: like the `Wrapf` message, it
      names the source and the store file of that output. */
  predicate ReportsCopyOf(e: Error, def: OutputDefinition)
  {
    e.Wrapped? && e.stage == CopyBundleOutput(def.path, OutputPath(def))
  }

  /** The store files the pass writes when it visits `keys`. */
  ghost function CopyTargets(action: string, defs: map<string, OutputDefinition>, recorded: map<string, string>,
                             keys: seq<string>): set<Path>
  {
    set k | k in keys && Collects(action, defs, recorded, k) :: OutputPath(defs[k])
  }

  /** The store files the pass may write. */
  ghost function CollectedPaths(action: string, defs: map<string, OutputDefinition>, recorded: map<string, string>): set<Path>
  {
    set k | k in defs && Collects(action, defs, recorded, k) :: OutputPath(defs[k])
  }

  /** The declared outputs the pass collects but cannot copy from `fs`. */
  ghost function FailingOutputs(action: string, defs: map<string, OutputDefinition>, recorded: map<string, string>,
                                fs: FileSystem): set<string>
  {
    set k | k in defs && Collects(action, defs, recorded, k) && !Copyable(fs, defs[k].path, OutputPath(defs[k]))
  }

  /** No collected output is read from a store file the pass itself writes,
      so whether a copy succeeds does not depend on the order of the copies. */
  ghost predicate SourcesOutsideTargets(action: string, defs: map<string, OutputDefinition>, recorded: map<string, string>,
                                        keys: seq<string>)
  {
    forall k :: k in keys && Collects(action, defs, recorded, k) ==> defs[k].path !in CopyTargets(action, defs, recorded, keys)
  }

  /** The loop over the declared outputs: copy each collected one, record a
      failure and carry on with the rest. */
  function CopyEach(action: string, defs: map<string, OutputDefinition>, recorded: map<string, string>,
                    keys: seq<string>, fs: FileSystem): (r: Collection)
    requires Distinct(keys)
    requires forall k :: k in keys ==> k in defs
    ensures r.fs.dirs == fs.dirs && r.fs.denied == fs.denied
    ensures SameOutside(r.fs.files, fs.files, CopyTargets(action, defs, recorded, keys))
    ensures forall i :: 0 <= i < |r.failures| ==>
              && r.failures[i].output in keys
              && Collects(action, defs, recorded, r.failures[i].output)
              && ReportsCopyOf(r.failures[i].error, defs[r.failures[i].output])
    ensures forall i, j :: 0 <= i < j < |r.failures| ==> r.failures[i].output != r.failures[j].output
    decreases |keys|
  {
    if keys == [] then Collection(fs, [])
    else
      var key := keys[0];
      var rest := keys[1..];
      assert Distinct(rest);
      assert forall k :: k in rest ==> k in keys && k != key;
      var def := defs[key];
      if !Collects(action, defs, recorded, key) then
        assert CopyTargets(action, defs, recorded, keys) == CopyTargets(action, defs, recorded, rest);
        CopyEach(action, defs, recorded, rest, fs)
      else
        var dst := OutputPath(def);
        assert CopyTargets(action, defs, recorded, keys) == {dst} + CopyTargets(action, defs, recorded, rest);
        match CopyFile(fs, def.path, dst)
        case Err(e) =>
          var c := CopyEach(action, defs, recorded, rest, fs);
          Collection(c.fs, [CopyFailure(key, Wrapped(CopyBundleOutput(def.path, dst), e))] + c.failures)
        case Ok(fs1) =>
          CopyEach(action, defs, recorded, rest, fs1)
  }

  /** When no source is a store file the loop writes, the copies that fail
      are exactly those of outputs that cannot be copied from the filesystem
      the loop started on: a failure never stops the remaining copies. */
  lemma {:induction false} CopyEachReportsEveryFailure(action: string, defs: map<string, OutputDefinition>,
                                                       recorded: map<string, string>, keys: seq<string>, fs: FileSystem)
    requires Distinct(keys)
    requires forall k :: k in keys ==> k in defs
    requires SourcesOutsideTargets(action, defs, recorded, keys)
    ensures var r := CopyEach(action, defs, recorded, keys, fs);
            forall k :: k in keys && Collects(action, defs, recorded, k) ==>
              (k in FailedOutputs(r.failures) <==> !Copyable(fs, defs[k].path, OutputPath(defs[k])))
    decreases |keys|
  {
    if keys != [] {
      var key := keys[0];
      var rest := keys[1..];
      assert Distinct(rest);
      assert forall k :: k in rest ==> k in keys && k != key;
      var def := defs[key];
      if !Collects(action, defs, recorded, key) {
        assert CopyTargets(action, defs, recorded, keys) == CopyTargets(action, defs, recorded, rest);
        CopyEachReportsEveryFailure(action, defs, recorded, rest, fs);
      } else {
        var dst := OutputPath(def);
        assert CopyTargets(action, defs, recorded, keys) == {dst} + CopyTargets(action, defs, recorded, rest);
        assert SourcesOutsideTargets(action, defs, recorded, rest);
        CopyFileSpec(fs, def.path, dst);
        match CopyFile(fs, def.path, dst)
        case Err(e) =>
          var c := CopyEach(action, defs, recorded, rest, fs);
          CopyEachReportsEveryFailure(action, defs, recorded, rest, fs);
          FailedOutputsCons(CopyFailure(key, Wrapped(CopyBundleOutput(def.path, dst), e)), c.failures);
        case Ok(fs1) =>
          CopyEachReportsEveryFailure(action, defs, recorded, rest, fs1);
          forall k | k in rest && Collects(action, defs, recorded, k)
            ensures Copyable(fs1, defs[k].path, OutputPath(defs[k])) <==> Copyable(fs, defs[k].path, OutputPath(defs[k]))
          {
            assert defs[k].path != dst;
          }
      }
    }
  }

  /** When no source is a store file the loop writes and outputs are keyed
      by name, every output that can be copied ends up in the store with the
      contents of its source. */
  lemma {:induction false} CopyEachCopiesVerbatim(action: string, defs: map<string, OutputDefinition>,
                                                  recorded: map<string, string>, keys: seq<string>, fs: FileSystem)
    requires Distinct(keys)
    requires forall k :: k in keys ==> k in defs
    requires SourcesOutsideTargets(action, defs, recorded, keys)
    requires WellKeyed(defs)
    ensures var r := CopyEach(action, defs, recorded, keys, fs);
            forall k :: k in keys && Collects(action, defs, recorded, k) && Copyable(fs, defs[k].path, OutputPath(defs[k])) ==>
              OutputPath(defs[k]) in r.fs.files && r.fs.files[OutputPath(defs[k])] == fs.files[defs[k].path]
    decreases |keys|
  {
    if keys != [] {
      var key := keys[0];
      var rest := keys[1..];
      assert Distinct(rest);
      assert forall k :: k in rest ==> k in keys && k != key;
      var def := defs[key];
      if !Collects(action, defs, recorded, key) {
        assert CopyTargets(action, defs, recorded, keys) == CopyTargets(action, defs, recorded, rest);
        CopyEachCopiesVerbatim(action, defs, recorded, rest, fs);
      } else {
        var dst := OutputPath(def);
        assert CopyTargets(action, defs, recorded, keys) == {dst} + CopyTargets(action, defs, recorded, rest);
        assert SourcesOutsideTargets(action, defs, recorded, rest);
        CopyFileSpec(fs, def.path, dst);
        match CopyFile(fs, def.path, dst)
        case Err(e) =>
          CopyEachCopiesVerbatim(action, defs, recorded, rest, fs);
        case Ok(fs1) =>
          CopyEachCopiesVerbatim(action, defs, recorded, rest, fs1);
          forall k | k in rest && Collects(action, defs, recorded, k)
            ensures OutputPath(defs[k]) != dst
            ensures Copyable(fs1, defs[k].path, OutputPath(defs[k])) <==> Copyable(fs, defs[k].path, OutputPath(defs[k]))
          {
            DistinctKeysDistinctPaths(defs, k, key);
            assert defs[k].path != dst;
          }
          assert dst !in CopyTargets(action, defs, recorded, rest);
      }
    }
  }

  lemma FailedOutputsCons(f: CopyFailure, rest: seq<CopyFailure>)
    ensures FailedOutputs([f] + rest) == {f.output} + FailedOutputs(rest)
  {
    var all := [f] + rest;
    forall x | x in FailedOutputs(all) ensures x in {f.output} + FailedOutputs(rest) {
      var i :| 0 <= i < |all| && all[i].output == x;
      if i > 0 { assert rest[i - 1].output == x; }
    }
    forall x | x in FailedOutputs(rest) ensures x in FailedOutputs(all) {
      var i :| 0 <= i < |rest| && rest[i].output == x;
      assert all[i + 1].output == x;
    }
    assert all[0].output == f.output;
  }

  /** Distinct failures name as many outputs as there are failures. */
  lemma {:induction false} FailedOutputsCount(failures: seq<CopyFailure>)
    requires forall i, j :: 0 <= i < j < |failures| ==> failures[i].output != failures[j].output
    ensures |FailedOutputs(failures)| == |failures|
  {
    if failures != [] {
      var tail := failures[1..];
      FailedOutputsCount(tail);
      assert failures == [failures[0]] + tail;
      FailedOutputsCons(failures[0], tail);
      assert failures[0].output !in FailedOutputs(tail);
    }
  }

  /** No collected output is read from a file the pass writes. */
  ghost predicate SourcesOutsideStore(action: string, defs: map<string, OutputDefinition>, recorded: map<string, string>)
  {
    forall k :: k in defs && Collects(action, defs, recorded, k) ==> defs[k].path !in CollectedPaths(action, defs, recorded)
  }

  /** The outcome the pass is meant to report: nil when every copy worked,
      otherwise one aggregate holding every copy failure. */
  function Aggregated(failures: seq<CopyFailure>): Outcome
  {
    if failures == [] then Pass else Fail(Aggregate(Errors(failures)))
  }

  /** `applyUnboundBundleOutputs` with its failures aggregated as intended.
      Only collected outputs are copied, each from its path to
      `<BundleOutputsDir>/<Name>`; nothing else in the filesystem changes.
      When no source is itself a store file the pass writes, the result is
      nil exactly when the store can be created and every collected output
      can be copied, and a failure reports one error per output that could
      not be copied. */
  function ApplyUnboundBundleOutputs(action: string, defs: map<string, OutputDefinition>, recorded: map<string, string>,
                                     fs: FileSystem, enumerate: set<string> -> seq<string>): (r: Effect)
    requires Faithful(enumerate)
    ensures r.fs.denied == fs.denied
    ensures r.fs.dirs == if CanCreateOutputsDir(fs) then fs.dirs + {BundleOutputsDir} else fs.dirs
    ensures SameOutside(r.fs.files, fs.files, CollectedPaths(action, defs, recorded))
    ensures !CanCreateOutputsDir(fs) ==>
              r.fs == fs && r.outcome == Fail(Wrapped(EnsureBundleOutputsDir, FsFailure(MkdirOp, BundleOutputsDir)))
    ensures CanCreateOutputsDir(fs) && r.outcome.Fail? ==>
              r.outcome.error.Aggregate? && r.outcome.error.errors != [] &&
              forall e :: e in r.outcome.error.errors ==>
                exists k :: Collects(action, defs, recorded, k) && ReportsCopyOf(e, defs[k])
    ensures CanCreateOutputsDir(fs) && SourcesOutsideStore(action, defs, recorded) ==>
              (r.outcome.Pass? <==> FailingOutputs(action, defs, recorded, fs) == {}) &&
              (r.outcome.Fail? ==> |r.outcome.error.errors| == |FailingOutputs(action, defs, recorded, fs)|)
    ensures CanCreateOutputsDir(fs) && SourcesOutsideStore(action, defs, recorded) ==>
              forall k :: k in FailingOutputs(action, defs, recorded, fs) ==>
                r.outcome.Fail? && r.outcome.error.Aggregate? &&
                exists i :: 0 <= i < |r.outcome.error.errors| && ReportsCopyOf(r.outcome.error.errors[i], defs[k])
    ensures CanCreateOutputsDir(fs) && SourcesOutsideStore(action, defs, recorded) && WellKeyed(defs) ==>
              forall k :: Collects(action, defs, recorded, k) && Copyable(fs, defs[k].path, OutputPath(defs[k])) ==>
                Join(BundleOutputsDir, k) in r.fs.files && r.fs.files[Join(BundleOutputsDir, k)] == fs.files[defs[k].path]
  {
    match CreateOutputsDir(fs)
    case Err(e) => Effect(fs, Fail(e))
    case Ok(fs1) =>
      var c := Collect(action, defs, recorded, fs1, enumerate);
      CollectFromStore(action, defs, recorded, fs, enumerate);
      FailuresReported(action, defs, recorded, c.failures);
      Effect(c.fs, Aggregated(c.failures))
  }

  /** The copies of the pass, once the store directory exists. */
  function Collect(action: string, defs: map<string, OutputDefinition>, recorded: map<string, string>,
                   fs1: FileSystem, enumerate: set<string> -> seq<string>): (c: Collection)
    requires Faithful(enumerate)
    ensures c.fs.dirs == fs1.dirs && c.fs.denied == fs1.denied
    ensures SameOutside(c.fs.files, fs1.files, CollectedPaths(action, defs, recorded))
    ensures forall i :: 0 <= i < |c.failures| ==>
              && Collects(action, defs, recorded, c.failures[i].output)
              && ReportsCopyOf(c.failures[i].error, defs[c.failures[i].output])
    ensures SourcesOutsideStore(action, defs, recorded) ==>
              FailedOutputs(c.failures) == FailingOutputs(action, defs, recorded, fs1) &&
              |c.failures| == |FailingOutputs(action, defs, recorded, fs1)|
    ensures SourcesOutsideStore(action, defs, recorded) && WellKeyed(defs) ==>
              forall k :: Collects(action, defs, recorded, k) && Copyable(fs1, defs[k].path, OutputPath(defs[k])) ==>
                OutputPath(defs[k]) in c.fs.files && c.fs.files[OutputPath(defs[k])] == fs1.files[defs[k].path]
  {
    var keys := enumerate(defs.Keys);
    assert Enumerates(keys, defs.Keys);
    assert CopyTargets(action, defs, recorded, keys) == CollectedPaths(action, defs, recorded);
    var c := CopyEach(action, defs, recorded, keys, fs1);
    FailedOutputsCount(c.failures);
    assert SourcesOutsideStore(action, defs, recorded) ==>
             forall k :: k in keys && Collects(action, defs, recorded, k) ==>
               (k in FailedOutputs(c.failures) <==> !Copyable(fs1, defs[k].path, OutputPath(defs[k]))) by {
      if SourcesOutsideStore(action, defs, recorded) {
        assert SourcesOutsideTargets(action, defs, recorded, keys);
        CopyEachReportsEveryFailure(action, defs, recorded, keys, fs1);
      }
    }
    assert SourcesOutsideStore(action, defs, recorded) && WellKeyed(defs) ==>
             forall k :: k in keys && Collects(action, defs, recorded, k) && Copyable(fs1, defs[k].path, OutputPath(defs[k])) ==>
               OutputPath(defs[k]) in c.fs.files && c.fs.files[OutputPath(defs[k])] == fs1.files[defs[k].path] by {
      if SourcesOutsideStore(action, defs, recorded) && WellKeyed(defs) {
        assert SourcesOutsideTargets(action, defs, recorded, keys);
        CopyEachCopiesVerbatim(action, defs, recorded, keys, fs1);
      }
    }
    c
  }

  /** The aggregated errors are those of the failures, in order: each names
      the copy of a collected output, and each failed output has its error
      among them. */
  lemma FailuresReported(action: string, defs: map<string, OutputDefinition>, recorded: map<string, string>,
                         failures: seq<CopyFailure>)
    requires forall i :: 0 <= i < |failures| ==>
               Collects(action, defs, recorded, failures[i].output) && ReportsCopyOf(failures[i].error, defs[failures[i].output])
    ensures forall e :: e in Errors(failures) ==> exists k :: Collects(action, defs, recorded, k) && ReportsCopyOf(e, defs[k])
    ensures forall k :: k in FailedOutputs(failures) ==>
              k in defs && exists i :: 0 <= i < |Errors(failures)| && ReportsCopyOf(Errors(failures)[i], defs[k])
  {
    var errs := Errors(failures);
    forall e | e in errs ensures exists k :: Collects(action, defs, recorded, k) && ReportsCopyOf(e, defs[k]) {
      var i :| 0 <= i < |errs| && errs[i] == e;
      assert errs[i] == failures[i].error;
    }
    forall k | k in FailedOutputs(failures)
      ensures exists i :: 0 <= i < |errs| && ReportsCopyOf(errs[i], defs[k])
    {
      var i :| 0 <= i < |failures| && failures[i].output == k;
      assert errs[i] == failures[i].error;
    }
  }

  /** Creating the store directory changes no collected output's ability to
      be copied. */
  lemma CollectFromStore(action: string, defs: map<string, OutputDefinition>, recorded: map<string, string>,
                         fs: FileSystem, enumerate: set<string> -> seq<string>)
    requires CanCreateOutputsDir(fs)
    ensures var fs1 := fs.(dirs := fs.dirs + {BundleOutputsDir});
            FailingOutputs(action, defs, recorded, fs1) == FailingOutputs(action, defs, recorded, fs) &&
            forall k :: k in defs ==>
              (Copyable(fs1, defs[k].path, OutputPath(defs[k])) <==> Copyable(fs, defs[k].path, OutputPath(defs[k])))
  {
    forall k | k in defs {
      OutputPathIsNotStore(defs[k]);
    }
  }

  /** "Already set" is decided by the value the steps recorded, not by the
      store: an output with a recorded value keeps its store file as it was
      (present or not), whatever its path holds. */
  lemma RecordedOutputIsNotCollected(action: string, defs: map<string, OutputDefinition>, recorded: map<string, string>,
                                     fs: FileSystem, enumerate: set<string> -> seq<string>, key: string)
    requires Faithful(enumerate)
    requires WellKeyed(defs)
    requires key in defs && Lookup(recorded, key) != ""
    ensures var after := ApplyUnboundBundleOutputs(action, defs, recorded, fs, enumerate).fs.files;
            var p := Join(BundleOutputsDir, key);
            (p in after <==> p in fs.files) && (p in fs.files ==> after[p] == fs.files[p])
  {
    RecordedPathIsNotCollected(action, defs, recorded, key);
  }

  /** The store file of an output with a recorded value is not among the
      files the pass may write. */
  lemma RecordedPathIsNotCollected(action: string, defs: map<string, OutputDefinition>, recorded: map<string, string>,
                                   key: string)
    requires WellKeyed(defs)
    requires key in defs && Lookup(recorded, key) != ""
    ensures Join(BundleOutputsDir, key) !in CollectedPaths(action, defs, recorded)
  {
    var p := Join(BundleOutputsDir, key);
    forall k | k in defs && Collects(action, defs, recorded, k) ensures OutputPath(defs[k]) != p {
      if OutputPath(defs[k]) == p { JoinInjective(BundleOutputsDir, k, key); }
    }
  }

  /** `applyUnboundBundleOutputs` as written: each copy failure is appended
      to an aggregate that is assigned to the local `err` rather than to
      `bigErr`, so the aggregate is dropped and the function reports failure
      only when the store directory cannot be created. Its effect on the
      filesystem is the same as the intended version's. */
  function ApplyUnboundBundleOutputsAsWritten(action: string, defs: map<string, OutputDefinition>,
                                              recorded: map<string, string>, fs: FileSystem,
                                              enumerate: set<string> -> seq<string>): (r: Effect)
    requires Faithful(enumerate)
    ensures r.outcome.Fail? <==> !CanCreateOutputsDir(fs)
    ensures r.fs == ApplyUnboundBundleOutputs(action, defs, recorded, fs, enumerate).fs
  {
    match CreateOutputsDir(fs)
    case Err(e) => Effect(fs, Fail(e))
    case Ok(fs1) =>
      var c := Collect(action, defs, recorded, fs1, enumerate);
      Effect(c.fs, Pass)
  }

  /** The discrepancy: a collected output whose copy fails makes the
      intended pass report an error, while the pass as written returns nil. */
  lemma CopyFailureIsSwallowed(action: string, defs: map<string, OutputDefinition>, recorded: map<string, string>,
                               fs: FileSystem, enumerate: set<string> -> seq<string>, key: string)
    requires Faithful(enumerate)
    requires CanCreateOutputsDir(fs)
    requires SourcesOutsideStore(action, defs, recorded)
    requires Collects(action, defs, recorded, key)
    requires !Copyable(fs, defs[key].path, OutputPath(defs[key]))
    ensures ApplyUnboundBundleOutputsAsWritten(action, defs, recorded, fs, enumerate).outcome == Pass
    ensures ApplyUnboundBundleOutputs(action, defs, recorded, fs, enumerate).outcome.Fail?
  {
  }

  /** Two outputs whose copies both fail are both reported by the intended
      pass, not only the first: the aggregate holds an error naming each
      copy. */
  lemma BothFailuresReported(action: string, defs: map<string, OutputDefinition>, recorded: map<string, string>,
                             fs: FileSystem, enumerate: set<string> -> seq<string>, a: string, b: string)
    requires Faithful(enumerate)
    requires CanCreateOutputsDir(fs)
    requires SourcesOutsideStore(action, defs, recorded)
    requires a != b
    requires Collects(action, defs, recorded, a) && !Copyable(fs, defs[a].path, OutputPath(defs[a]))
    requires Collects(action, defs, recorded, b) && !Copyable(fs, defs[b].path, OutputPath(defs[b]))
    ensures var r := ApplyUnboundBundleOutputs(action, defs, recorded, fs, enumerate);
            && r.outcome.Fail? && r.outcome.error.Aggregate? && |r.outcome.error.errors| >= 2
            && (exists i :: 0 <= i < |r.outcome.error.errors| && ReportsCopyOf(r.outcome.error.errors[i], defs[a]))
            && (exists j :: 0 <= j < |r.outcome.error.errors| && ReportsCopyOf(r.outcome.error.errors[j], defs[b]))
  {
    var failing := FailingOutputs(action, defs, recorded, fs);
    assert {a, b} <= failing;
    assert |{a, b}| == 2;
    SubsetCard({a, b}, failing);
  }

  lemma SubsetCard(small: set<string>, big: set<string>)
    requires small <= big
    ensures |small| <= |big|
  {
    assert big == small + (big - small);
  }

  /** A concrete instance: one declared output with a path, no recorded
      value and no file at that path. The intended pass reports the failed
      copy; the pass as written returns nil. */
  lemma MissingSourceExample(enumerate: set<string> -> seq<string>)
    requires Faithful(enumerate)
    ensures var defs := map["report" := OutputDefinition("report", "/cnab/app/report.txt", [], false)];
            var fs := FileSystem(map[], {}, {});
            && ApplyUnboundBundleOutputsAsWritten("install", defs, map[], fs, enumerate).outcome == Pass
            && ApplyUnboundBundleOutputs("install", defs, map[], fs, enumerate).outcome.Fail?
  {
    var defs := map["report" := OutputDefinition("report", "/cnab/app/report.txt", [], false)];
    var fs := FileSystem(map[], {}, {});
    assert Collects("install", defs, map[], "report");
    assert OutputPath(defs["report"]) == "/cnab/app/outputs/report";
    assert CollectedPaths("install", defs, map[]) == {"/cnab/app/outputs/report"};
    CopyFailureIsSwallowed("install", defs, map[], fs, enumerate, "report");
  }
}
